=== FILE: README.md ===
# Hadirku face attendance — a Dafny model of its decision core

Hadirku is a Flask web application for recording attendance by face:

- a student registers a face once;
- afterwards the student checks in for a course subject with a webcam frame;
- the frame is matched against the stored face encodings;
- one `hadir` record per user, subject and day is written;
- an admin panel manages subjects.

This project models the parts of the application that decide something, as pure Dafny functions over immutable data:

- the registration and check-in routes of `main.py`, as a fixed sequence of checks in which the first failing check decides the answer;
- the two matcher backends:
  - the descriptor backend (`face_utils.py`): first match under a distance tolerance;
  - the mesh backend (`face_utils_mediapipe.py`): argmax of cosine similarity with a threshold, which `main.py` imports;
- the working-resolution rule both backends share;
- `Subject.validate_data` in `models.py`;
- the admin panel's access rule and `SubjectAdmin.on_model_change`;
- the `DATABASE_URL` rewrite of `create_app`.

Foreign calls become function-typed parameters, collected in the `Backend` and `Services` datatypes. These include face detection, landmark meshes, face encodings, distances, cosine similarity, `cv2.resize`, `pickle.loads`, and base64/PIL decoding. Python's exceptions become the `Raised` case of `Base.Result`.

Modules, one per source file:

| module | file | models |
|---|---|---|
| `Base` | base.dfy | `Option`, `Result`, and the Python exceptions that matter |
| `PyStr` | pystr.dfy | Python `str` operations used by the core: `strip`, `upper`, `split`, `startswith`, `replace(…, 1)`, `os.path.join` |
| `Models` | models.dfy | the tables, the blob query, `Subject.validate_data` |
| `Vision` | vision.dfy | arrays with shapes, `optimize_image_for_recognition`, the matcher outcomes |
| `ClassicMatcher` | face_utils.dfy | `face_utils.py` |
| `MeshMatcher` | face_utils_mediapipe.dfy | `face_utils_mediapipe.py` |
| `BackendOrder` | backends.dfy | where the two backends disagree |
| `Attendance` | main.dfy | `main.py` registration and check-in |
| `AdminViews` | admin.dfy | `admin.py` |
| `AppConfig` | app.dfy | the database URI of `app.py` |

`main.py` line 93 calls the matcher on the probe encoding instead of the frame, and reads the returned `(user_id, message)` pair as a user. So as written, no check-in can succeed (see Findings). `Attendance.Process` models the intended route, in which the matcher receives the decoded frame and yields the matched user. `Attendance.ProcessAsWritten` models the code as it stands.

## Model

| member | source | states |
|---|---|---|
| PyStr.Strip | models.py:49 | `strip()` removes Python whitespace from both ends only: the result is a slice `s[i..j]` of the text with only whitespace before `i` and after `j`, it has no whitespace at either end, and it is empty exactly when the text is all whitespace |
| PyStr.Upper | admin.py:62 | `upper()` keeps the length and maps each character on its own, lower-case ASCII letters to their capitals and every other character to itself |
| PyStr.Split | main.py:40 | `split(',')` yields at least one piece, no piece contains the separator, and joining the pieces with the separator gives back the text |
| PyStr.ReplaceFirstOfPrefix | app.py:23 | for text that starts with the pattern, `replace(pattern, repl, 1)` replaces exactly that leading occurrence and keeps the rest |
| PyStr.ReplaceFirst | app.py:23 | `replace(pattern, repl, 1)`: text without the pattern is unchanged; otherwise the first occurrence, and only it, is replaced by `repl` |
| PyStr.PathJoin | app.py:27 | `os.path.join(a, b)`: an absolute `b` is the result; otherwise the result starts with `a`, ends with `b`, and has exactly one `/` between them when `a` is non-empty and does not end with `/` |
| Models.UsersWithFaces | face_utils.py:50 | the users with a stored blob, each listed with that user's id and blob; the list is empty exactly when no user has a blob |
| Models.UsersWithFacesComplete | face_utils_mediapipe.py:86 | every user with a stored blob appears in the query result |
| Models.ValidateData | models.py:46-61 | each of the four messages appears exactly when its condition holds on the stripped field; messages come in check order, at most two; the list is empty exactly when both fields are non-blank and within 20/255 characters; a missing code or name raises `AttributeError` at the length check, even after the blank message was appended |
| Vision.Optimize | face_utils.py:12-18 | returns exactly when the array has rank two or more and, if wider than 640 columns, is tall enough that the scaled height is not zero; a rank below two raises at the shape unpack, and a zero target size raises in `cv2.resize`; up to 640 columns the image is returned unchanged; a wider one gets exactly `max_width` columns, the height scaled down by the same factor (rounded down), and the channel dimensions kept, except that a single trailing channel is dropped, as `cv2.resize` returns a rank-two array for an `h × w × 1` input; so the working image is a colour image (rank three, three channels) exactly when the frame is. `face_utils_mediapipe.py:52-58` is the same rule |
| ClassicMatcher.Tolerance | face_utils.py:66 | the tolerance is the configured value, or 0.5 when the variable is unset |
| ClassicMatcher.UnsetToleranceIsDefault | face_utils.py:66 | matching with the variable unset gives the same answer as with it set to 0.5 |
| ClassicMatcher.GenerateEncoding | face_utils.py:20-39 | raises exactly when the resize rule raises (at the shape unpack or in `cv2.resize`) or when one face is located in a frame that is not a colour image, which dlib's encoder refuses at line 37 (`TypeError`); otherwise an encoding exists exactly when one face location is found in the working image, and it is the encoding of that face |
| ClassicMatcher.EncodingIsSoleProbe | face_utils.py:26-39 | registration and matching (lines 47, 59 and 63) look at the same faces: registration returns exactly when the resize rule accepts the frame and, if it shows one face, the frame is a colour image; an encoding exists exactly when the matcher sees exactly one probe face, and the encoding is that probe |
| ClassicMatcher.RegisteredFrameRecognized | face_utils.py:41-77 | a frame whose encoding is a user's stored blob is recognised when shown again, provided every stored blob decodes and the encoding is within tolerance of itself |
| ClassicMatcher.FirstCloseFrom | face_utils.py:71-75 | `matches.index(True)`: the first stored encoding within tolerance; none exactly when no stored encoding is within tolerance |
| ClassicMatcher.FirstMatchFrom | face_utils.py:69-79 | no match exactly when no probe face is within tolerance of any stored encoding; otherwise the index is the first stored encoding matching the earliest probe face that matches anything |
| ClassicMatcher.SearchFirstMatch | face_utils.py:69-77 | the nested loop over probe faces and stored encodings, which stops at the first hit, computes the same index as the recursive definition |
| ClassicMatcher.DecodeAll | face_utils.py:55 | the list comprehension raises `UnpicklingError` exactly when some blob fails to decode; otherwise it decodes every blob, in order |
| ClassicMatcher.FindMatch | face_utils.py:41-79 | checks in order: image shape and resize, then an empty table (before any face is looked for), then blob decoding, then no face in the frame, then the encoder's refusal (`TypeError`, exactly when a face is found in a frame that is not a colour image), then the first-match search; "empty database" exactly for an empty table, `UnpicklingError` exactly when a stored blob fails to decode, "no face" and "not recognised" exactly under their conditions, and a recognition exactly when some probe face is within tolerance of some stored encoding; a recognised user is a listed user at the earliest hit |
| ClassicMatcher.RecognizedUserIsKnown | face_utils.py:73-77 | a returned id is the id of a user with a stored blob |
| ClassicMatcher.LooserToleranceStillRecognizes | face_utils.py:66-77 | a frame recognised under one tolerance is still recognised under any larger one |
| MeshMatcher.Flatten | face_utils_mediapipe.py:42-46 | the feature vector has three entries per landmark, `x, y, z` interleaved in landmark order |
| MeshMatcher.UnflattenFlatten | face_utils_mediapipe.py:42-46 | flattening loses nothing: regrouping the vector in threes gives back the landmarks |
| MeshMatcher.Decodable | face_utils_mediapipe.py:94-100 | the indices the loop keeps: strictly increasing, each one a blob that decodes, and every blob that decodes among them |
| MeshMatcher.ExtractEmbedding | face_utils_mediapipe.py:12-46 | an array whose rank is not three raises at the colour conversion of line 24; a rank-three array without exactly three channels raises `ValueError` in the face detector (line 27); otherwise an embedding exists exactly when the detector reports one face and the mesh finds a face, and it holds the first mesh face's landmarks, three values each, which it gives back when regrouped |
| MeshMatcher.GenerateEncoding | face_utils_mediapipe.py:60-70 | raises exactly when the frame is not a resizable rank-three, three-channel array: a rank below two at the shape unpack, a frame the resize refuses or of another rank in the image library, and a rank-three frame with another channel count in the face detector, except a wide single-channel frame, which the resize turns into rank two so that the colour conversion raises; otherwise the embedding of the working image |
| MeshMatcher.DecodeValid | face_utils_mediapipe.py:94-100 | blobs that fail to decode are skipped: the entries are, in table order, exactly the listed users whose blob decodes, each with its decoded blob; the result is empty exactly when no blob decodes |
| MeshMatcher.ArgMax | face_utils_mediapipe.py:116 | `np.argmax`: the first index of a maximal score |
| MeshMatcher.FirstMaxUnique | face_utils_mediapipe.py:116 | the first maximal index is unique, so ties always go to the earliest user |
| MeshMatcher.Decide | face_utils_mediapipe.py:105-123 | `ValueError` exactly when a stored encoding's width differs from the probe's or the width is zero; otherwise a user is recognised exactly when some decoded user scores at least the threshold, and the user returned is the one at the first index of the highest score, which itself reaches the threshold |
| MeshMatcher.FindMatchAt | face_utils_mediapipe.py:72-123 | checks in order: image shape, resize, colour conversion and the detector's channel check (a frame that is not a rank-three, three-channel array raises, with the same error as the encoding step; `ValueError` exactly when the encoding step raises it or a stored width is incomparable), then no single face (before the table is read), then an empty table, then no decodable blob, then the comparison and the thresholded argmax; each early answer holds exactly under its condition |
| MeshMatcher.FindMatch | face_utils_mediapipe.py:113-123 | with the threshold 0.85: a recognised user is a stored user whose decoded blob scores at least 0.85 against the probe, and is the decoded user at the first index of the highest score; a ready frame whose probe is comparable with the decoded table is recognised whenever some stored blob that decodes scores at least 0.85; a rejection means every stored blob that decodes scores below 0.85 |
| MeshMatcher.RecognizedWhenSomeScoreReaches | face_utils_mediapipe.py:105-121 | at any threshold, a ready frame with a face, whose probe is comparable with the decoded table, is recognised when some stored blob that decodes scores at least the threshold |
| MeshMatcher.RecognizedScoresAtLeast | face_utils_mediapipe.py:94-121 | at any threshold, a recognised user is a stored user whose decoded blob scores at least the threshold |
| MeshMatcher.RejectedScoresBelow | face_utils_mediapipe.py:94-123 | at any threshold, a rejection means every stored blob that decodes scores below the threshold |
| MeshMatcher.RecognizedUserDecodes | face_utils_mediapipe.py:94-121 | a recognised id belongs to a user whose stored blob decodes |
| MeshMatcher.LowerThresholdKeepsMatch | face_utils_mediapipe.py:119-121 | a recognition at one threshold is the same recognition at any lower threshold |
| MeshMatcher.HigherThresholdKeepsReject | face_utils_mediapipe.py:119-123 | a rejection at one threshold stays a rejection at any higher threshold |
| MeshMatcher.FindMatchRejectsEncoding | face_utils_mediapipe.py:52 | a one-dimensional array, such as an encoding, raises at the shape unpack before anything else |
| BackendOrder.EmptyTableFacelessFrame | face_utils.py:50-61 | for a rank-three, three-channel frame with no face and no stored blobs, the descriptor backend answers "empty database" and the mesh backend (`face_utils_mediapipe.py:82-88`) answers "no face" |
| BackendOrder.UndecodableBlobFacelessFrame | face_utils.py:55-61 | for a rank-three, three-channel frame with no face and an undecodable blob, the descriptor backend raises while the mesh backend skips the blob (`face_utils_mediapipe.py:94-100`) and answers "no face" |
| BackendOrder.SingleChannelFrame | face_utils_mediapipe.py:20-24 | on a single-channel (rank-two) frame that the resize rule accepts, the descriptor backend (`face_utils.py:20-79`) answers while no face is located, and raises at its encoder (`TypeError`) on registration with one face and on matching with any face once the table is read without error; the mesh backend raises at its colour conversion whatever the frame shows |
| Attendance.Payload | main.py:40 | `split(',')[1]` is the text between the first and the second comma, or up to the end; `IndexError` exactly when there is no comma |
| Attendance.PayloadOfDataUrl | main.py:81 | a data URL `head,body` yields `body`, whatever follows a further comma |
| Attendance.DecodeFrame | main.py:81-84 | a URL without a comma raises `IndexError`; a frame is produced exactly when the payload exists and decodes |
| Attendance.Register | main.py:31-61 | a missing image answers "no image"; a failure and a frame without a single face leave the user table unchanged; success replaces the current user's blob with the serialised new encoding, and nothing else changes |
| Attendance.ReRegistrationKeepsLatest | main.py:54-55 | after two registrations of which the second succeeds, the stored blob is the second encoding, whatever the first did, and other users are untouched |
| Attendance.Process | main.py:71-129 | the answers, each exactly under its condition and in this order: incomplete data, then a decode failure, then no face, then not recognised, then already present for (matched user, subject, today); every rejection leaves the records unchanged; success appends exactly one `hadir` record for the matched user, the subject and today |
| Attendance.ProcessKeepsOnePerSlot | main.py:99-119 | if the records hold at most one entry per user, subject and day, they still do after a check-in |
| Attendance.SecondCheckInRejected | main.py:99-108 | after an admitted check-in, a second one the same day for the same subject and the same matched user is answered "already present" and writes nothing, whoever is logged in |
| Attendance.AttributionIgnoresSession | main.py:100-113 | the logged-in user does not influence the answer or the record: the record goes to the matched user |
| Attendance.MatchedUser | main.py:93-95 | the matcher's answer read as a user: a user exactly for a recognition, and the exception for a raise |
| Attendance.MeshCheckInNamesRegisteredUser | main.py:13 | with the imported mesh backend, an admitted check-in names a stored user whose blob decodes |
| Attendance.ProcessAsWritten | main.py:93-101 | as written, no check-in is ever recorded; any frame with a face ends in the generic error answer |
| Attendance.AsWrittenMeshRouteRaises | main.py:93 | with the mesh backend, the as-written call raises while unpacking the shape of the one-dimensional encoding |
| Attendance.AsWrittenLosesRecognizedCheckIn | main.py:93-101 | a complete request whose face is recognised is admitted by the intended route, and answered with an error by the route as written |
| AdminViews.IsAccessible | admin.py:10-11 | a view is accessible exactly to a signed-in administrator |
| AdminViews.AccessIsUniform | admin.py:17-18 | all four views apply the same rule (lines 10-11, 17-18, 32-33 and 74-75) |
| AdminViews.Normalize | admin.py:62-65 | the cleaned subject's code is the stripped code in upper case, its name the stripped name, a truthy description becomes its stripped value, and a missing or empty description is kept; the result is clean |
| AdminViews.OnModelChange | admin.py:53-71 | a blank code is refused first, then a blank name; the duplicate refusal happens exactly on creation when the normalised code is taken, and names that code; so edits are never refused as duplicates; a saved subject has the stripped upper-case code, the stripped name, a truthy description stripped and any other kept, and is clean and non-blank |
| AdminViews.NormalizeIdempotent | admin.py:62-65 | normalising twice is normalising once |
| AdminViews.ResaveIsNoChange | admin.py:53-71 | a subject in the form the hook saves (clean, with non-empty code and name) is saved unchanged when edited again, whatever the table holds |
| AdminViews.SavedSubjectHasNoRequiredError | admin.py:55-59 | a subject in the form the hook saves passes `validate_data`'s presence checks (models.py:49-53): no "required" message |
| AppConfig.RewriteScheme | app.py:22-23 | a `postgres://` URL becomes `postgresql://` with the remainder kept; other URLs, `postgresql://` ones included, are unchanged; the result never has the legacy scheme |
| AppConfig.RewriteSchemeIdempotent | app.py:22-24 | rewriting twice is rewriting once |
| AppConfig.DatabaseUri | app.py:19-27 | a set, non-empty `DATABASE_URL` is used after the rewrite; an unset or empty one gives `sqlite:///<instance_path>/attendance.db`; the URI never has the legacy scheme |

## Left out

- Vision.Optimize: the new size is computed in exact arithmetic as `floor(n * max_width / width)`. The source computes `int(n * (max_width / width))` in floating point, which can come out one lower.
- PyStr.Upper: maps only ASCII letters. Python's `str.upper` also maps other scripts, and can lengthen text (for example `ß` becomes `SS`).
- The landmark-mesh call, face detector, face locations and encodings, face distance, cosine similarity and `cv2.resize` are library calls. They are parameters of the `Backend` datatypes, and their numerical behaviour is not modelled.
- ClassicMatcher.FindMatch: `compare_faces` (face_utils.py:71) subtracts the probe from the stored encodings with numpy broadcasting, which raises `ValueError` for most width mismatches and silently broadcasts some others. The model compares any widths through the `distance` parameter and never raises there.
- ClassicMatcher.GenerateEncoding: dlib's face encoder accepts only 8-bit `h × w × 3` arrays. The model raises `TypeError` for any other shape, but arrays carry no element type, so an RGB array of another dtype is encoded. The face detector's own refusal of arrays that are neither 8-bit grey nor RGB (four channels, or rank four) is not modelled either: `locate` answers for any array.
- ClassicMatcher.FindMatch: the same two gaps. An RGB frame of another element type is matched, and a frame the face detector refuses gets the detector's answer instead of its error.
- ClassicMatcher.EncodingIsSoleProbe: the same two gaps. A frame the face detector refuses, or an RGB frame of another element type, counts as encodable.
- Vision.Optimize: for a wide array of rank four or more, `cv2.resize` may itself raise. The model resizes it; the mesh backend raises `CvError` on such an array at the colour conversion anyway.
- `pickle.loads`, `ndarray.tobytes`, base64 and PIL decoding are parameters that succeed or fail. The source stores `tobytes()` (main.py:54) but reads with `pickle.loads` (face_utils.py:55, face_utils_mediapipe.py:96). Whether those raw bytes unpickle is decided by the `decode` parameter, not by this model.
- A rank-three array reaches the detector of `extract_face_embedding_mediapipe` unconverted, as in the source; the detector refuses one without three channels with `ValueError`, and the model raises that error. The colour conversion of face_utils_mediapipe.py:24 is modelled only as the error it raises on arrays that are not rank three.
- The answers' texts are given as comments on the verdict datatypes. Messages that embed a formatted similarity (`{max_similarity:.2f}`), the user's name, or `str(e)` are not modelled.
- A `FACE_RECOGNITION_TOLERANCE` value that does not parse as a number makes `float()` raise. The model takes the value already parsed.
- The `index`, `register_face`, `attendance`, `records` and `setup` routes, login sessions, JSON handling and SQLAlchemy sessions and commits are Flask plumbing. "Today" in the Asia/Jakarta zone is an input.
- When `on_model_change` runs on creation, the new subject may already be in the session, and the duplicate query can autoflush it. That is framework behaviour, so the model checks against the subjects stored before the save.
- `app.py` line 58 imports `setup_admin`, which `admin.py` does not define (it defines `init_admin`). Start-up wiring is not part of this model.
- The view configuration in admin.py (columns, labels, `can_create`) and `inaccessible_callback` redirects are not modelled.
- auth.py, create_admin.py, seed_db.py and static/js/main.js are not part of this model: login forms, an interactive console script, a seeding script, and browser code.
- Concurrency is not modelled. Two simultaneous check-ins could both pass the duplicate query before either commits.
- The check-in route's use of `current_user` is deliberately absent from the decision, as in the source. `Attendance.AttributionIgnoresSession` states this.

## Findings

| source | as written | input that shows it | evidently intended | confidence | as-written member | corrected member |
|---|---|---|---|---|---|---|
| main.py:93-101 | `find_match_in_db(captured_encoding)` passes the probe encoding, which the matcher expects to be an image, and the returned `(user_id, message)` pair is used as the user (`not matched_user`, `matched_user.id`) | a complete request with a subject id whose data-URL payload is the base64 of an image holding one face the matcher recognises (lemma `Attendance.AsWrittenLosesRecognizedCheckIn`, where the payload `QQ` is a placeholder the abstract image decoder maps to that frame): the mesh matcher raises unpacking the encoding's one-dimensional shape; with any matcher that returns, the pair is truthy and has no `.id` | call the matcher on the decoded frame, and admit the user id it returns | high; not executed | Attendance.ProcessAsWritten | Attendance.Process |

=== FILE: admin.dfy ===
/** The admin panel of admin.py: who may open its views, and the checks and
    clean-up `SubjectAdmin.on_model_change` applies before a subject is saved. */
module AdminViews {
  import opened Base
  import opened PyStr
  import opened Models

  /** The visitor behind `current_user`: anonymous, or a signed-in user. */
  datatype Visitor = Anonymous | SignedIn(user: User)

  /** The four views the panel registers. */
  datatype View = Index | Users | Subjects | Attendance

  /** `is_accessible` of each view class. */
  function IsAccessible(view: View, visitor: Visitor): (r: bool)
    ensures r <==> visitor.SignedIn? && visitor.user.isAdmin
  {
    match view
    case Index => visitor.SignedIn? && visitor.user.isAdmin
    case Users => visitor.SignedIn? && visitor.user.isAdmin
    case Subjects => visitor.SignedIn? && visitor.user.isAdmin
    case Attendance => visitor.SignedIn? && visitor.user.isAdmin
  }

  /** No view of the panel is open to a visitor the index refuses: the four
      classes use the same rule. */
  lemma AccessIsUniform(v1: View, v2: View, visitor: Visitor)
    ensures IsAccessible(v1, visitor) == IsAccessible(v2, visitor)
  {
  }

  /** The `ValidationError`s the hook raises. */
  datatype AdminError = MissingCode | MissingName | DuplicateCode(code: string)
  {
    /** The message shown on the form. */
    function Text(): string
    {
      match this
      case MissingCode => "Kode mata kuliah harus diisi!"
      case MissingName => "Nama mata kuliah harus diisi!"
      case DuplicateCode(c) => "Kode mata kuliah \"" + c + "\" sudah ada!"
    }
  }

  /** What happens to the submitted model: saved in its cleaned form, or refused. */
  datatype Change = Saved(subject: Subject) | Refused(reason: AdminError)

  /** A subject as the hook leaves it: code and name present and free of
      surrounding whitespace, the code in upper case, a truthy description
      free of surrounding whitespace. */
  predicate Clean(s: Subject)
  {
    && s.code.Some? && s.name.Some?
    && Strip(s.code.value) == s.code.value && Upper(s.code.value) == s.code.value
    && Strip(s.name.value) == s.name.value
    && (s.description.Some? && s.description.value != "" ==> Strip(s.description.value) == s.description.value)
  }

  /** Lines 62-65: the code stripped and upper-cased, the name stripped, and a
      truthy description stripped; a missing or empty description is kept. */
  function Normalize(m: Subject): (r: Subject)
    requires m.code.Some? && m.name.Some?
    ensures Clean(r)
    ensures r.code == Some(Upper(Strip(m.code.value))) && r.name == Some(Strip(m.name.value))
    ensures m.description.Some? && m.description.value != "" ==> r.description == Some(Strip(m.description.value))
    ensures m.description.None? || m.description == Some("") ==> r.description == m.description
  {
    var code := Upper(Strip(m.code.value));
    var name := Strip(m.name.value);
    StripOfUpperStripped(m.code.value);
    UpperIdempotent(Strip(m.code.value));
    StripIdempotent(m.name.value);
    var description := CleanDescription(m.description);
    Subject(Some(code), Some(name), description)
  }

  /** Line 64-65: a truthy description is stripped, any other is kept. */
  function CleanDescription(d: Option<string>): (r: Option<string>)
    ensures r.Some? && r.value != "" ==> Strip(r.value) == r.value
    ensures d.None? || d == Some("") ==> r == d
    ensures d.Some? && d.value != "" ==> r == Some(Strip(d.value))
  {
    if d.Some? && d.value != "" then
      StripIdempotent(d.value);
      Some(Strip(d.value))
    else d
  }

  /** Some stored subject already has this code. */
  predicate CodeTaken(stored: seq<Subject>, code: string)
  {
    exists i :: 0 <= i < |stored| && stored[i].code == Some(code)
  }

  /** `SubjectAdmin.on_model_change(form, model, is_created)` over the
      subjects stored before the save: a blank code, then a blank name, is
      refused; the model is normalised; on creation only, a stored subject
      with the normalised code refuses it. */
  function OnModelChange(m: Subject, isCreated: bool, stored: seq<Subject>): (r: Change)
    ensures r == Refused(MissingCode) <==> Blank(m.code)
    ensures r == Refused(MissingName) <==> !Blank(m.code) && Blank(m.name)
    ensures r.Refused? && r.reason.DuplicateCode? <==>
              !Blank(m.code) && !Blank(m.name) && isCreated && CodeTaken(stored, Upper(Strip(m.code.value)))
    ensures r.Refused? && r.reason.DuplicateCode? ==> r.reason.code == Upper(Strip(m.code.value))
    ensures r.Saved? ==> Clean(r.subject) && !Blank(r.subject.code) && !Blank(r.subject.name)
    ensures r.Saved? ==> isCreated ==> !CodeTaken(stored, r.subject.code.value)
    ensures r.Saved? ==> r.subject.code == Some(Upper(Strip(m.code.value))) && r.subject.name == Some(Strip(m.name.value))
    ensures r.Saved? && m.description.Some? && m.description.value != "" ==>
              r.subject.description == Some(Strip(m.description.value))
    ensures r.Saved? && (m.description.None? || m.description == Some("")) ==> r.subject.description == m.description
  {
    if Blank(m.code) then Refused(MissingCode)
    else if Blank(m.name) then Refused(MissingName)
    else
      var s := Normalize(m);
      if isCreated && CodeTaken(stored, s.code.value) then Refused(DuplicateCode(s.code.value))
      else Saved(s)
  }

  /** Normalising twice is normalising once. */
  lemma NormalizeIdempotent(m: Subject)
    requires m.code.Some? && m.name.Some?
    ensures Normalize(Normalize(m)) == Normalize(m)
  {
    var s := Normalize(m);
    assert Clean(s);
  }

  /** Saving again, as an edit, a subject in the form the hook saves (clean,
      with a non-empty code and name) keeps it exactly as it is, whatever the
      table holds. */
  lemma ResaveIsNoChange(s: Subject, later: seq<Subject>)
    requires Clean(s) && s.code.value != "" && s.name.value != ""
    ensures OnModelChange(s, false, later) == Saved(s)
  {
    CleanIsNormal(s);
  }

  /** A clean subject is its own normal form. */
  lemma CleanIsNormal(s: Subject)
    requires Clean(s)
    ensures Normalize(s) == s
  {
    var n := Normalize(s);
    assert n.code == s.code && n.name == s.name;
    assert n.description == s.description;
  }

  /** A subject in the form the hook saves passes the presence checks of
      `Subject.validate_data`: its list holds neither "required" message. */
  lemma SavedSubjectHasNoRequiredError(s: Subject)
    requires Clean(s) && s.code.value != "" && s.name.value != ""
    ensures ValidateData(s).Ok?
    ensures CodeRequired !in ValidateData(s).value && NameRequired !in ValidateData(s).value
  {
  }
}

=== FILE: app.dfy ===
/** The database location chosen by `create_app` in app.py. */
module AppConfig {
  import opened Base
  import opened PyStr

  /** The scheme some hosts put in `DATABASE_URL`, which SQLAlchemy no longer accepts. */
  const LegacyScheme := "postgres://"

  /** The scheme SQLAlchemy expects for PostgreSQL. */
  const PostgresqlScheme := "postgresql://"

  /** The fallback database file inside the instance folder. */
  const DatabaseFile := "attendance.db"

  /** Lines 22-23: a URL with the legacy scheme gets the first occurrence of
      that scheme (which is the leading one) replaced; any other is kept. */
  function RewriteScheme(url: string): (r: string)
    ensures StartsWith(url, LegacyScheme) ==>
              StartsWith(r, PostgresqlScheme) && r[|PostgresqlScheme|..] == url[|LegacyScheme|..]
    ensures !StartsWith(url, LegacyScheme) ==> r == url
    ensures !StartsWith(r, LegacyScheme)
  {
    if StartsWith(url, LegacyScheme) then
      ReplaceFirstOfPrefix(url, LegacyScheme, PostgresqlScheme);
      var r := PostgresqlScheme + url[|LegacyScheme|..];
      assert r[8] == 'q' && LegacyScheme[8] == ':';
      assert r[..|PostgresqlScheme|] == PostgresqlScheme;
      ReplaceFirst(url, LegacyScheme, PostgresqlScheme)
    else url
  }

  /** Rewriting a rewritten URL changes nothing. */
  lemma RewriteSchemeIdempotent(url: string)
    ensures RewriteScheme(RewriteScheme(url)) == RewriteScheme(url)
  {
  }

  /** Lines 19-27: a truthy `DATABASE_URL` is used with its scheme rewritten;
      an unset or empty one selects the SQLite file `attendance.db` in the
      instance folder. */
  function DatabaseUri(env: Option<string>, instancePath: string): (r: string)
    ensures !StartsWith(r, LegacyScheme)
    ensures env.Some? && env.value != "" && !StartsWith(env.value, LegacyScheme) ==> r == env.value
    ensures env.Some? && env.value != "" && StartsWith(env.value, LegacyScheme) ==>
              r == PostgresqlScheme + env.value[|LegacyScheme|..]
    ensures (env.None? || env == Some("")) && instancePath != [] && instancePath[|instancePath| - 1] != '/' ==>
              r == "sqlite:///" + instancePath + "/" + DatabaseFile
  {
    if env.Some? && env.value != "" then
      RewriteScheme(env.value)
    else
      var r := "sqlite:///" + PathJoin(instancePath, DatabaseFile);
      assert r[1] == 'q' && LegacyScheme[1] == 'o';
      r
  }
}

=== FILE: backends.dfy ===
/** The two matcher backends answer the same question with their checks in a
    different order, and accept different arrays; on a frame without a face,
    and on a single-channel frame, their answers differ. */
module BackendOrder {
  import opened Base
  import opened Models
  import opened Vision
  import ClassicMatcher
  import MeshMatcher

  /** An empty face table on a faceless frame: the descriptor backend reports
      the empty database (it looks at the table first), the mesh backend
      reports the missing face (it looks at the frame first). */
  lemma EmptyTableFacelessFrame(img: NdArray, users: seq<User>, tolEnv: Option<real>, decode: Blob -> Option<Embedding>,
                                classic: ClassicMatcher.Backend, mesh: MeshMatcher.Backend)
    requires MeshMatcher.MeshReady(img)
    requires forall i :: 0 <= i < |users| ==> users[i].faceEncoding.None?
    requires MeshMatcher.Probe(img, mesh).None?
    ensures ClassicMatcher.FindMatch(img, users, tolEnv, decode, classic) == Ok(EmptyDatabase)
    ensures MeshMatcher.FindMatch(img, users, decode, mesh) == Ok(NoFaceInCamera)
  {
  }

  /** A stored blob that does not decode: the descriptor backend raises while
      reading the table, whatever the frame shows; the mesh backend skips the
      blob and, on a faceless frame, reports the missing face. */
  lemma UndecodableBlobFacelessFrame(img: NdArray, users: seq<User>, tolEnv: Option<real>, decode: Blob -> Option<Embedding>,
                                     classic: ClassicMatcher.Backend, mesh: MeshMatcher.Backend, i: nat)
    requires MeshMatcher.MeshReady(img)
    requires i < |users| && users[i].faceEncoding.Some? && decode(users[i].faceEncoding.value).None?
    requires MeshMatcher.Probe(img, mesh).None?
    ensures ClassicMatcher.FindMatch(img, users, tolEnv, decode, classic) == Raised(UnpicklingError)
    ensures MeshMatcher.FindMatch(img, users, decode, mesh) == Ok(NoFaceInCamera)
  {
    var refs := UsersWithFaces(users);
    assert refs != [];
    UsersWithFacesComplete(users, i);
    assert ClassicMatcher.DecodeAll(refs, decode).Raised?;
  }

  /** A single-channel (rank-two) frame: the descriptor backend looks for
      faces in it and answers while it finds none, but its encoder refuses
      the frame once a face is found; the mesh backend raises at its colour
      conversion whatever the frame shows, both when registering and when
      matching. */
  lemma SingleChannelFrame(img: NdArray, users: seq<User>, tolEnv: Option<real>, decode: Blob -> Option<Embedding>,
                           classic: ClassicMatcher.Backend, mesh: MeshMatcher.Backend)
    requires |img.shape| == 2 && Resizable(img, MaxWidth)
    ensures ClassicMatcher.GenerateEncoding(img, classic) ==
              if |classic.locate(ClassicMatcher.Optimized(img, classic))| == 1 then Raised(TypeError) else Ok(None)
    ensures MeshMatcher.GenerateEncoding(img, mesh) == Raised(CvError)
    ensures classic.locate(ClassicMatcher.Optimized(img, classic)) == [] ==>
              ClassicMatcher.FindMatch(img, users, tolEnv, decode, classic)
                in {Ok(EmptyDatabase), Raised(UnpicklingError), Ok(NoFaceInCamera)}
    ensures classic.locate(ClassicMatcher.Optimized(img, classic)) != [] ==>
              ClassicMatcher.FindMatch(img, users, tolEnv, decode, classic)
                in {Ok(EmptyDatabase), Raised(UnpicklingError), Raised(TypeError)}
    ensures MeshMatcher.FindMatch(img, users, decode, mesh) == Raised(CvError)
  {
  }
}

=== FILE: base.dfy ===
/** Python-level building blocks shared by every module of the model:
    an optional value (Python's `None` or a value), the exceptions that can
    escape the modelled functions, and a value-or-exception result. */
module Base {

  /** `None` or a value, as a Python variable that may hold `None`. */
  datatype Option<+T> = None | Some(value: T)
  {
    /** The value, or `default` when there is none (`os.environ.get(k, default)`). */
    function GetOr(default: T): T
    {
      match this
      case Some(v) => v
      case None => default
    }
  }

  /** The exceptions the modelled code lets escape. */
  datatype PyError =
    | UnpackError      // `height, width = shape[:2]` on an array of rank below two
    | IndexError       // `split(',')[1]` on text that holds no comma
    | ImageError       // base64 or the image library could not decode the frame
    | UnpicklingError  // `pickle.loads` on a blob it cannot read
    | AttributeError   // a method called on `None`, or `.id` read from a tuple
    | CvError          // `cv2.error`: a colour conversion or resize the image library refuses
    | ValueError       // numpy or scikit-learn refusing arrays of mismatched or zero width, or
                       // the face detector refusing an image that is not three-channel
    | TypeError        // dlib's face encoder refusing an image argument that is not three-channel

  /** A returned value or a raised exception. */
  datatype Result<+T> = Ok(value: T) | Raised(error: PyError)
}

=== FILE: face_utils.dfy ===
/** The descriptor backend (face_utils.py): registration takes the encoding of
    the single face in the frame; matching compares every face in the frame
    with every stored encoding under a distance tolerance and returns the
    first stored user that matches the earliest matching face. */
module ClassicMatcher {
  import opened Base
  import opened Models
  import opened Vision

  /** A face location `(top, right, bottom, left)`. */
  datatype Box = Box(top: int, right: int, bottom: int, left: int)

  /** The calls into the face library, as functions of their arguments. */
  datatype Backend = Backend(
    resample: Resampler,                      // cv2.resize
    locate: NdArray -> seq<Box>,              // face_recognition.face_locations(image, model="hog")
    encodeFace: (NdArray, Box) -> Embedding,  // face_recognition.face_encodings, for one location
    distance: (Embedding, Embedding) -> real) // face_recognition.face_distance

  /** The tolerance used when FACE_RECOGNITION_TOLERANCE is not set. */
  const DefaultTolerance: real := 0.5

  /** The tolerance read from the environment (already parsed as a number), or the default. */
  function Tolerance(env: Option<real>): (t: real)
    ensures env.None? ==> t == DefaultTolerance
    ensures env.Some? ==> t == env.value
  {
    env.GetOr(DefaultTolerance)
  }

  /** The working image of both entry points. */
  function Optimized(img: NdArray, be: Backend): NdArray
    requires Resizable(img, MaxWidth)
  {
    Optimize(img, MaxWidth, be.resample).value
  }

  /** `face_encodings(image, known_face_locations=boxes)`: one encoding per location, in order. */
  function Encodings(img: NdArray, boxes: seq<Box>, be: Backend): (es: seq<Embedding>)
    ensures |es| == |boxes|
    ensures forall k :: 0 <= k < |boxes| ==> es[k] == be.encodeFace(img, boxes[k])
  {
    seq(|boxes|, k requires 0 <= k < |boxes| => be.encodeFace(img, boxes[k]))
  }

  /** `generate_encoding_from_image`: `None` unless exactly one face is located
      in the working image; then the encoding of that face, which dlib's
      encoder computes only for a three-channel image. */
  function GenerateEncoding(img: NdArray, be: Backend): (r: Result<Option<Embedding>>)
    ensures r.Raised? <==>
              !Resizable(img, MaxWidth) || (|be.locate(Optimized(img, be))| == 1 && !ThreeChannel(img))
    ensures |img.shape| < 2 ==> r == Raised(UnpackError)
    ensures |img.shape| >= 2 && !Resizable(img, MaxWidth) ==> r == Raised(CvError)
    ensures Resizable(img, MaxWidth) && r.Raised? ==> r == Raised(TypeError)
    ensures r.Ok? ==> (r.value.Some? <==> |be.locate(Optimized(img, be))| == 1)
    ensures r.Ok? && r.value.Some? ==>
              r.value.value == be.encodeFace(Optimized(img, be), be.locate(Optimized(img, be))[0])
  {
    match Optimize(img, MaxWidth, be.resample)
    case Raised(e) => Raised(e)
    case Ok(opt) =>
      var boxes := be.locate(opt);
      if |boxes| != 1 then Ok(None)
      else if !ThreeChannel(opt) then Raised(TypeError)
      else Ok(Some(Encodings(opt, boxes, be)[0]))
  }

  /** `compare_faces` for one stored encoding: within tolerance of the probe. */
  predicate Close(known: Embedding, probe: Embedding, tol: real, be: Backend)
  {
    be.distance(known, probe) <= tol
  }

  /** No stored encoding is within tolerance of the probe (`True not in matches`). */
  predicate NoneClose(known: seq<Embedding>, probe: Embedding, tol: real, be: Backend)
  {
    forall j :: 0 <= j < |known| ==> !Close(known[j], probe, tol, be)
  }

  /** `matches.index(True)`, searched from index `from` on. */
  function FirstCloseFrom(known: seq<Embedding>, probe: Embedding, tol: real, be: Backend, from: nat): (r: Option<nat>)
    requires from <= |known|
    ensures r.Some? ==> from <= r.value < |known| && Close(known[r.value], probe, tol, be)
    ensures r.Some? ==> forall j :: from <= j < r.value ==> !Close(known[j], probe, tol, be)
    ensures r.None? <==> forall j :: from <= j < |known| ==> !Close(known[j], probe, tol, be)
    decreases |known| - from
  {
    if from == |known| then None
    else if Close(known[from], probe, tol, be) then Some(from)
    else FirstCloseFrom(known, probe, tol, be, from + 1)
  }

  /** Probe `q` is the first probe from `from` on with any match, and stored
      encoding `j` is the first one it matches. */
  ghost predicate EarliestHit(known: seq<Embedding>, probes: seq<Embedding>, tol: real, be: Backend, from: nat, q: nat, j: nat)
  {
    && from <= q < |probes| && j < |known|
    && (forall q' :: from <= q' < q ==> NoneClose(known, probes[q'], tol, be))
    && Close(known[j], probes[q], tol, be)
    && (forall j' :: 0 <= j' < j ==> !Close(known[j'], probes[q], tol, be))
  }

  /** The loop over the probe faces: the stored index chosen for the first
      probe, from `from` on, that matches anything. */
  function FirstMatchFrom(known: seq<Embedding>, probes: seq<Embedding>, tol: real, be: Backend, from: nat): (r: Option<nat>)
    requires from <= |probes|
    ensures r.None? <==> forall q :: from <= q < |probes| ==> NoneClose(known, probes[q], tol, be)
    ensures r.Some? ==> exists q :: EarliestHit(known, probes, tol, be, from, q, r.value)
    decreases |probes| - from
  {
    if from == |probes| then None
    else
      match FirstCloseFrom(known, probes[from], tol, be, 0)
      case Some(j) =>
        assert EarliestHit(known, probes, tol, be, from, from, j);
        Some(j)
      case None =>
        var r := FirstMatchFrom(known, probes, tol, be, from + 1);
        assert r.Some? ==> exists q :: EarliestHit(known, probes, tol, be, from, q, r.value) by {
          if r.Some? {
            var q :| EarliestHit(known, probes, tol, be, from + 1, q, r.value);
            assert EarliestHit(known, probes, tol, be, from, q, r.value);
          }
        }
        r
  }

  /** The nested loops of `find_match_in_db`: for each probe in order, the
      first stored encoding within tolerance; the search stops at the first hit. */
  method SearchFirstMatch(known: seq<Embedding>, probes: seq<Embedding>, tol: real, be: Backend) returns (r: Option<nat>)
    ensures r == FirstMatchFrom(known, probes, tol, be, 0)
  {
    var p := 0;
    while p < |probes|
      invariant p <= |probes|
      invariant FirstMatchFrom(known, probes, tol, be, 0) == FirstMatchFrom(known, probes, tol, be, p)
    {
      var j := 0;
      while j < |known|
        invariant j <= |known|
        invariant FirstCloseFrom(known, probes[p], tol, be, 0) == FirstCloseFrom(known, probes[p], tol, be, j)
      {
        if be.distance(known[j], probes[p]) <= tol {
          return Some(j);
        }
        j := j + 1;
      }
      p := p + 1;
    }
    return None;
  }

  /** `[pickle.loads(u.face_encoding) for u in users_with_faces]`: every blob
      decoded in order, or the exception of the first one that fails. */
  function DecodeAll(refs: seq<Reference>, decode: Blob -> Option<Embedding>): (r: Result<seq<Embedding>>)
    ensures r.Raised? <==> exists i :: 0 <= i < |refs| && decode(refs[i].blob).None?
    ensures r.Raised? ==> r.error == UnpicklingError
    ensures r.Ok? ==> |r.value| == |refs|
    ensures r.Ok? ==> forall i :: 0 <= i < |refs| ==> decode(refs[i].blob) == Some(r.value[i])
    decreases |refs|
  {
    if |refs| == 0 then Ok([])
    else
      match decode(refs[0].blob)
      case None => Raised(UnpicklingError)
      case Some(e) =>
        var rest := DecodeAll(refs[1..], decode);
        assert rest.Raised? ==> exists i :: 0 <= i < |refs| && decode(refs[i].blob).None? by {
          if rest.Raised? {
            var i :| 0 <= i < |refs[1..]| && decode(refs[1..][i].blob).None?;
            assert refs[i + 1] == refs[1..][i];
          }
        }
        assert rest.Ok? ==> forall i :: 0 <= i < |refs| ==> decode(refs[i].blob).Some? by {
          if rest.Ok? {
            forall i | 0 <= i < |refs| ensures decode(refs[i].blob).Some? {
              if i > 0 { assert refs[i] == refs[1..][i - 1]; }
            }
          }
        }
        match rest
        case Raised(err) => Raised(err)
        case Ok(es) =>
          assert forall i :: 1 <= i < |refs| ==> refs[i] == refs[1..][i - 1];
          Ok([e] + es)
  }

  /** The encodings of every face located in the working image, as dlib
      computes them for a three-channel image. */
  function Probes(img: NdArray, be: Backend): seq<Embedding>
    requires Resizable(img, MaxWidth)
  {
    var opt := Optimized(img, be);
    Encodings(opt, be.locate(opt), be)
  }

  /** `find_match_in_db` of the descriptor backend. The checks run in this
      order: the image shape, an empty reference set (before any face is
      looked for), the decoding of every blob, a frame without faces, the
      encoder's refusal of an image that is not three-channel, and then the
      first-match search under the tolerance. */
  function FindMatch(img: NdArray, users: seq<User>, tolEnv: Option<real>, decode: Blob -> Option<Embedding>, be: Backend): (r: Result<MatchOutcome>)
    ensures |img.shape| < 2 ==> r == Raised(UnpackError)
    ensures |img.shape| >= 2 && !Resizable(img, MaxWidth) ==> r == Raised(CvError)
    ensures r == Ok(EmptyDatabase) <==> Resizable(img, MaxWidth) && UsersWithFaces(users) == []
    ensures r == Raised(UnpicklingError) <==>
              Resizable(img, MaxWidth) && UsersWithFaces(users) != [] && DecodeAll(UsersWithFaces(users), decode).Raised?
    ensures r == Ok(NoFaceInCamera) <==>
              Resizable(img, MaxWidth) && UsersWithFaces(users) != [] && DecodeAll(UsersWithFaces(users), decode).Ok?
              && be.locate(Optimized(img, be)) == []
    ensures r == Raised(TypeError) <==>
              && Resizable(img, MaxWidth) && UsersWithFaces(users) != [] && DecodeAll(UsersWithFaces(users), decode).Ok?
              && be.locate(Optimized(img, be)) != [] && !ThreeChannel(img)
    ensures r == Ok(NotRecognized) <==>
              && Resizable(img, MaxWidth) && UsersWithFaces(users) != [] && DecodeAll(UsersWithFaces(users), decode).Ok?
              && ThreeChannel(img) && Probes(img, be) != []
              && forall q :: 0 <= q < |Probes(img, be)| ==>
                   NoneClose(DecodeAll(UsersWithFaces(users), decode).value, Probes(img, be)[q], Tolerance(tolEnv), be)
    ensures r.Ok? && r.value.Recognized? <==>
              && Resizable(img, MaxWidth) && UsersWithFaces(users) != [] && DecodeAll(UsersWithFaces(users), decode).Ok?
              && ThreeChannel(img)
              && exists q :: 0 <= q < |Probes(img, be)| &&
                   !NoneClose(DecodeAll(UsersWithFaces(users), decode).value, Probes(img, be)[q], Tolerance(tolEnv), be)
    ensures r.Ok? && r.value.Recognized? ==>
              Resizable(img, MaxWidth) && DecodeAll(UsersWithFaces(users), decode).Ok? &&
              exists j :: 0 <= j < |UsersWithFaces(users)| && UsersWithFaces(users)[j].id == r.value.user
                && exists q :: EarliestHit(DecodeAll(UsersWithFaces(users), decode).value, Probes(img, be), Tolerance(tolEnv), be, 0, q, j)
  {
    match Optimize(img, MaxWidth, be.resample)
    case Raised(e) => Raised(e)
    case Ok(opt) =>
      var refs := UsersWithFaces(users);
      if |refs| == 0 then Ok(EmptyDatabase)
      else
        match DecodeAll(refs, decode)
        case Raised(e) => Raised(e)
        case Ok(known) =>
          var boxes := be.locate(opt);
          if |boxes| == 0 then Ok(NoFaceInCamera)
          else if !ThreeChannel(opt) then Raised(TypeError)
          else
            var probes := Encodings(opt, boxes, be);
            match FirstMatchFrom(known, probes, Tolerance(tolEnv), be, 0)
            case Some(j) => Ok(Recognized(refs[j].id))
            case None => Ok(NotRecognized)
  }

  /** A recognised user is a stored user that has a face blob. */
  lemma RecognizedUserIsKnown(img: NdArray, users: seq<User>, tolEnv: Option<real>, decode: Blob -> Option<Embedding>, be: Backend)
    ensures var r := FindMatch(img, users, tolEnv, decode, be);
            r.Ok? && r.value.Recognized? ==>
              exists i :: 0 <= i < |users| && users[i].id == r.value.user && users[i].faceEncoding.Some?
  {
    var r := FindMatch(img, users, tolEnv, decode, be);
    if r.Ok? && r.value.Recognized? {
      ListedUserIsKnown(users, r.value.user);
    }
  }

  /** An id listed by the query belongs to a stored user with a blob. */
  lemma ListedUserIsKnown(users: seq<User>, id: UserId)
    requires exists j :: 0 <= j < |UsersWithFaces(users)| && UsersWithFaces(users)[j].id == id
    ensures exists i :: 0 <= i < |users| && users[i].id == id && users[i].faceEncoding.Some?
  {
    var refs := UsersWithFaces(users);
    var j :| 0 <= j < |refs| && refs[j].id == id;
    var i :| 0 <= i < |users| && users[i].id == refs[j].id && users[i].faceEncoding == Some(refs[j].blob);
  }

  /** Loosening the tolerance never loses a recognition: a frame recognised
      under `tight` is recognised (possibly as an earlier-listed user) under
      any `loose >= tight`. */
  lemma LooserToleranceStillRecognizes(img: NdArray, users: seq<User>, tight: real, loose: real,
                                       decode: Blob -> Option<Embedding>, be: Backend)
    requires tight <= loose
    requires FindMatch(img, users, Some(tight), decode, be).Ok?
    requires FindMatch(img, users, Some(tight), decode, be).value.Recognized?
    ensures FindMatch(img, users, Some(loose), decode, be).Ok?
    ensures FindMatch(img, users, Some(loose), decode, be).value.Recognized?
  {
    var refs := UsersWithFaces(users);
    var known := DecodeAll(refs, decode).value;
    var probes := Probes(img, be);
    var j :| 0 <= j < |refs| && refs[j].id == FindMatch(img, users, Some(tight), decode, be).value.user
             && exists q :: EarliestHit(known, probes, tight, be, 0, q, j);
    var q: nat :| EarliestHit(known, probes, tight, be, 0, q, j);
    assert Close(known[j], probes[q], loose, be);
    assert !NoneClose(known, probes[q], loose, be);
    var opt := Optimized(img, be);
    assert be.locate(opt) != [];
    assert FirstMatchFrom(known, Encodings(opt, be.locate(opt), be), Tolerance(Some(loose)), be, 0).Some?;
  }

  /** Registration and matching look at the same faces: a frame the resize
      rule accepts encodes unless it shows one face and is not a colour
      image, an encoding exists exactly when the frame has one probe face for
      the matcher, and it is that probe. */
  lemma EncodingIsSoleProbe(img: NdArray, be: Backend)
    ensures GenerateEncoding(img, be).Ok? <==>
              Resizable(img, MaxWidth) && (|Probes(img, be)| == 1 ==> ThreeChannel(img))
    ensures GenerateEncoding(img, be).Ok? ==>
              (GenerateEncoding(img, be).value.Some? <==> |Probes(img, be)| == 1)
    ensures GenerateEncoding(img, be).Ok? && GenerateEncoding(img, be).value.Some? ==>
              Probes(img, be) == [GenerateEncoding(img, be).value.value]
  {
  }

  /** Registration followed by matching: when the frame that produced a
      user's stored encoding is shown again, every stored blob decodes, and
      an encoding is within tolerance of itself, the frame is recognised. */
  lemma RegisteredFrameRecognized(img: NdArray, users: seq<User>, tolEnv: Option<real>,
                                  decode: Blob -> Option<Embedding>, be: Backend, i: nat)
    requires GenerateEncoding(img, be).Ok? && GenerateEncoding(img, be).value.Some?
    requires i < |users| && users[i].faceEncoding.Some?
    requires decode(users[i].faceEncoding.value) == GenerateEncoding(img, be).value
    requires forall k :: 0 <= k < |users| && users[k].faceEncoding.Some? ==> decode(users[k].faceEncoding.value).Some?
    requires Close(GenerateEncoding(img, be).value.value, GenerateEncoding(img, be).value.value, Tolerance(tolEnv), be)
    ensures FindMatch(img, users, tolEnv, decode, be).Ok?
    ensures FindMatch(img, users, tolEnv, decode, be).value.Recognized?
  {
    var e := GenerateEncoding(img, be).value.value;
    var refs := UsersWithFaces(users);
    UsersWithFacesComplete(users, i);
    var j :| 0 <= j < |refs| && refs[j] == Reference(users[i].id, users[i].faceEncoding.value);
    AllBlobsDecode(users, decode);
    var known := DecodeAll(refs, decode).value;
    assert known[j] == e;
    EncodingIsSoleProbe(img, be);
    assert ThreeChannel(img);
    assert Probes(img, be)[0] == e;
    assert !NoneClose(known, Probes(img, be)[0], Tolerance(tolEnv), be);
  }

  /** When every stored blob decodes, reading the table does not raise. */
  lemma AllBlobsDecode(users: seq<User>, decode: Blob -> Option<Embedding>)
    requires forall k :: 0 <= k < |users| && users[k].faceEncoding.Some? ==> decode(users[k].faceEncoding.value).Some?
    ensures DecodeAll(UsersWithFaces(users), decode).Ok?
  {
  }

  /** An unset FACE_RECOGNITION_TOLERANCE behaves exactly like one set to 0.5. */
  lemma UnsetToleranceIsDefault(img: NdArray, users: seq<User>, decode: Blob -> Option<Embedding>, be: Backend)
    ensures FindMatch(img, users, None, decode, be) == FindMatch(img, users, Some(DefaultTolerance), decode, be)
  {
  }
}

=== FILE: face_utils_mediapipe.dfy ===
/** The mesh backend (face_utils_mediapipe.py): an encoding is the flattened
    landmark mesh of the single detected face; matching scores the probe
    against every stored encoding that decodes and accepts the best-scoring
    user when the score reaches the threshold. */
module MeshMatcher {
  import opened Base
  import opened Models
  import opened Vision

  /** One mesh landmark in normalised image coordinates. */
  datatype Landmark = Landmark(x: real, y: real, z: real)

  /** The calls into the vision libraries, as functions of their arguments. */
  datatype Backend = Backend(
    resample: Resampler,                        // cv2.resize
    detect: NdArray -> nat,                     // FaceDetection.process: the number of detections
    mesh: NdArray -> seq<seq<Landmark>>,        // FaceMesh.process: the landmarks of each face found
    similarity: (Embedding, Embedding) -> real) // sklearn cosine_similarity of one pair

  /** The acceptance threshold of `find_match_in_db`. */
  const Threshold: real := 0.85

  /** The loop `face_embedding.extend([lm.x, lm.y, lm.z])` over the landmarks. */
  function Flatten(landmarks: seq<Landmark>): (e: Embedding)
    ensures |e| == 3 * |landmarks|
    ensures forall i :: 0 <= i < |landmarks| ==>
              e[3 * i] == landmarks[i].x && e[3 * i + 1] == landmarks[i].y && e[3 * i + 2] == landmarks[i].z
    decreases |landmarks|
  {
    if |landmarks| == 0 then []
    else
      var lm := landmarks[0];
      var rest := Flatten(landmarks[1..]);
      var e := [lm.x, lm.y, lm.z] + rest;
      assert forall i :: 1 <= i < |landmarks| ==>
               e[3 * i] == landmarks[i].x && e[3 * i + 1] == landmarks[i].y && e[3 * i + 2] == landmarks[i].z by {
        forall i | 1 <= i < |landmarks|
          ensures e[3 * i] == landmarks[i].x && e[3 * i + 1] == landmarks[i].y && e[3 * i + 2] == landmarks[i].z
        {
          var j := i - 1;
          assert landmarks[i] == landmarks[1..][j];
          assert 3 * i == 3 * j + 3;
          assert e[3 * j + 3] == rest[3 * j] && e[3 * j + 4] == rest[3 * j + 1] && e[3 * j + 5] == rest[3 * j + 2];
        }
      }
      e
  }

  /** Reads an encoding back as landmarks, three coordinates at a time. */
  function Unflatten(e: Embedding): (landmarks: seq<Landmark>)
    requires |e| % 3 == 0
    decreases |e|
  {
    if |e| == 0 then []
    else [Landmark(e[0], e[1], e[2])] + Unflatten(e[3..])
  }

  /** Flattening loses nothing: the landmarks can be read back from the encoding. */
  lemma {:induction false} UnflattenFlatten(landmarks: seq<Landmark>)
    ensures Unflatten(Flatten(landmarks)) == landmarks
    decreases |landmarks|
  {
    if |landmarks| > 0 {
      var e := Flatten(landmarks);
      assert e[3..] == Flatten(landmarks[1..]);
      UnflattenFlatten(landmarks[1..]);
      assert [landmarks[0]] + landmarks[1..] == landmarks;
    }
  }

  /** `extract_face_embedding_mediapipe`. An array whose rank is not three
      goes through `cv2.cvtColor(image, COLOR_BGR2RGB)`, which refuses
      anything but a three- or four-channel image, so it raises; a rank-three
      array that does not have three channels reaches the face detector,
      which refuses it. Otherwise `None` unless exactly one face is detected
      and the mesh finds a face, and then the flattened landmarks of the
      first mesh face. */
  function ExtractEmbedding(img: NdArray, be: Backend): (r: Result<Option<Embedding>>)
    ensures r.Raised? <==> |img.shape| != 3 || img.shape[2] != 3
    ensures |img.shape| != 3 ==> r == Raised(CvError)
    ensures |img.shape| == 3 && img.shape[2] != 3 ==> r == Raised(ValueError)
    ensures r.Ok? ==> (r.value.Some? <==> be.detect(img) == 1 && be.mesh(img) != [])
    ensures r.Ok? && r.value.Some? ==>
              |r.value.value| == 3 * |be.mesh(img)[0]| && Unflatten(r.value.value) == be.mesh(img)[0]
  {
    if |img.shape| != 3 then Raised(CvError)
    else if img.shape[2] != 3 then Raised(ValueError)
    else if be.detect(img) != 1 then Ok(None)
    else
      var faces := be.mesh(img);
      if |faces| == 0 then Ok(None)
      else
        UnflattenFlatten(faces[0]);
        Ok(Some(Flatten(faces[0])))
  }

  /** The frames the mesh backend can work on: `optimize_image_for_recognition`
      returns, and the frame is a three-channel image of rank three. */
  predicate MeshReady(img: NdArray)
  {
    Resizable(img, MaxWidth) && ThreeChannel(img)
  }

  /** `generate_encoding_from_image`: the embedding of the working image. */
  function GenerateEncoding(img: NdArray, be: Backend): (r: Result<Option<Embedding>>)
    ensures r.Raised? <==> !MeshReady(img)
    ensures |img.shape| < 2 ==> r == Raised(UnpackError)
    ensures |img.shape| >= 2 && (!Resizable(img, MaxWidth) || |img.shape| != 3) ==> r == Raised(CvError)
    ensures Resizable(img, MaxWidth) && |img.shape| == 3 && img.shape[2] != 3 ==>
              r == Raised(if img.shape[2] == 1 && img.shape[1] > MaxWidth then CvError else ValueError)
    ensures r.Ok? ==> r == ExtractEmbedding(Optimize(img, MaxWidth, be.resample).value, be)
  {
    match Optimize(img, MaxWidth, be.resample)
    case Raised(e) => Raised(e)
    case Ok(opt) => ExtractEmbedding(opt, be)
  }

  /** A stored user whose blob decoded, with its encoding. */
  datatype Known = Known(id: UserId, embedding: Embedding)

  /** Each index of `refs` moved one place on. */
  function Shift(idx: seq<nat>): (r: seq<nat>)
    ensures |r| == |idx| && forall k :: 0 <= k < |idx| ==> r[k] == idx[k] + 1
  {
    seq(|idx|, k requires 0 <= k < |idx| => idx[k] + 1)
  }

  /** `idx` lists, in increasing order, exactly the indices of `refs` whose blob decodes. */
  ghost predicate ListsDecodable(refs: seq<Reference>, decode: Blob -> Option<Embedding>, idx: seq<nat>)
  {
    && (forall k :: 0 <= k < |idx| ==> idx[k] < |refs| && decode(refs[idx[k]].blob).Some?)
    && (forall k, l :: 0 <= k < l < |idx| ==> idx[k] < idx[l])
    && (forall i :: 0 <= i < |refs| && decode(refs[i].blob).Some? ==> i in idx)
  }

  /** Putting a reference in front: the indices of the tail move on by one,
      and the head's index comes first when its blob decodes. */
  lemma {:induction false} ConsListsDecodable(refs: seq<Reference>, decode: Blob -> Option<Embedding>, rest: seq<nat>)
    requires |refs| > 0 && ListsDecodable(refs[1..], decode, rest)
    ensures ListsDecodable(refs, decode, Head(refs[0], decode) + Shift(rest))
  {
    ShiftedDecodable(refs, decode, rest);
    ShiftedCovers(refs, decode, rest);
    if decode(refs[0].blob).Some? {
      ConsZero(refs, decode, Shift(rest));
    } else {
      assert [] + Shift(rest) == Shift(rest);
    }
  }

  /** The tail's decodable indices, moved on by one, are increasing decodable indices of the whole list. */
  lemma ShiftedDecodable(refs: seq<Reference>, decode: Blob -> Option<Embedding>, rest: seq<nat>)
    requires |refs| > 0 && ListsDecodable(refs[1..], decode, rest)
    ensures forall k :: 0 <= k < |rest| ==> 1 <= Shift(rest)[k] < |refs| && decode(refs[Shift(rest)[k]].blob).Some?
    ensures forall k, l :: 0 <= k < l < |rest| ==> Shift(rest)[k] < Shift(rest)[l]
  {
    var shifted := Shift(rest);
    forall k | 0 <= k < |shifted|
      ensures 1 <= shifted[k] < |refs| && decode(refs[shifted[k]].blob).Some?
    {
      assert refs[shifted[k]] == refs[1..][rest[k]];
    }
  }

  /** Every decodable index after the head is a moved-on index of the tail. */
  lemma ShiftedCovers(refs: seq<Reference>, decode: Blob -> Option<Embedding>, rest: seq<nat>)
    requires |refs| > 0 && ListsDecodable(refs[1..], decode, rest)
    ensures forall i :: 1 <= i < |refs| && decode(refs[i].blob).Some? ==> i in Shift(rest)
  {
    var shifted := Shift(rest);
    forall i | 1 <= i < |refs| && decode(refs[i].blob).Some?
      ensures i in shifted
    {
      assert refs[1..][i - 1] == refs[i];
      var k :| 0 <= k < |rest| && rest[k] == i - 1;
      assert shifted[k] == i;
    }
  }

  /** Index zero in front of larger decodable indices that cover the rest. */
  lemma ConsZero(refs: seq<Reference>, decode: Blob -> Option<Embedding>, shifted: seq<nat>)
    requires |refs| > 0 && decode(refs[0].blob).Some?
    requires forall k :: 0 <= k < |shifted| ==> 1 <= shifted[k] < |refs| && decode(refs[shifted[k]].blob).Some?
    requires forall k, l :: 0 <= k < l < |shifted| ==> shifted[k] < shifted[l]
    requires forall i :: 1 <= i < |refs| && decode(refs[i].blob).Some? ==> i in shifted
    ensures ListsDecodable(refs, decode, [0] + shifted)
  {
    var idx := [0] + shifted;
    assert forall k :: 1 <= k < |idx| ==> idx[k] == shifted[k - 1];
  }

  /** The indices of the references whose blob decodes, in increasing order. */
  function Decodable(refs: seq<Reference>, decode: Blob -> Option<Embedding>): (idx: seq<nat>)
    ensures ListsDecodable(refs, decode, idx)
    decreases |refs|
  {
    if |refs| == 0 then []
    else
      var rest := Decodable(refs[1..], decode);
      ConsListsDecodable(refs, decode, rest);
      Head(refs[0], decode) + Shift(rest)
  }

  /** `known` holds, position by position, the reference at `idx` with its decoded blob. */
  ghost predicate DecodedAt(refs: seq<Reference>, decode: Blob -> Option<Embedding>, idx: seq<nat>, known: seq<Known>)
  {
    && |known| == |idx|
    && forall k :: 0 <= k < |known| ==>
         idx[k] < |refs| && known[k].id == refs[idx[k]].id && decode(refs[idx[k]].blob) == Some(known[k].embedding)
  }

  /** The entry a reference contributes to the decoded list: itself with its
      decoded blob, or nothing when the blob does not decode. */
  function Entry(ref: Reference, decode: Blob -> Option<Embedding>): seq<Known>
  {
    match decode(ref.blob)
    case None => []
    case Some(e) => [Known(ref.id, e)]
  }

  /** The index a reference contributes to the decodable indices. */
  function Head(ref: Reference, decode: Blob -> Option<Embedding>): seq<nat>
  {
    if decode(ref.blob).Some? then [0] else []
  }

  /** Putting a reference in front keeps the decoded entries lined up with their indices. */
  lemma {:induction false} ConsDecodedAt(refs: seq<Reference>, decode: Blob -> Option<Embedding>, tail: seq<nat>, rest: seq<Known>)
    requires |refs| > 0 && DecodedAt(refs[1..], decode, tail, rest)
    ensures DecodedAt(refs, decode, Head(refs[0], decode) + Shift(tail), Entry(refs[0], decode) + rest)
  {
    var shifted := Shift(tail);
    forall k | 0 <= k < |rest|
      ensures shifted[k] < |refs| && rest[k].id == refs[shifted[k]].id && decode(refs[shifted[k]].blob) == Some(rest[k].embedding)
    {
      assert refs[shifted[k]] == refs[1..][tail[k]];
    }
    var idx := Head(refs[0], decode) + shifted;
    var known := Entry(refs[0], decode) + rest;
    var h := |Head(refs[0], decode)|;
    assert |Entry(refs[0], decode)| == h;
    assert forall k :: h <= k < |known| ==> known[k] == rest[k - h] && idx[k] == shifted[k - h];
  }

  /** Indices listing exactly the decodable references are empty exactly when nothing decodes. */
  lemma NoneDecodable(refs: seq<Reference>, decode: Blob -> Option<Embedding>, idx: seq<nat>)
    requires ListsDecodable(refs, decode, idx)
    ensures idx == [] <==> forall i :: 0 <= i < |refs| ==> decode(refs[i].blob).None?
  {
    if idx != [] {
      assert decode(refs[idx[0]].blob).Some?;
    }
  }

  /** The `try: pickle.loads ... except: continue` loop: the users whose blob
      decodes, in table order, each with its decoded encoding; the others
      are skipped. */
  function DecodeValid(refs: seq<Reference>, decode: Blob -> Option<Embedding>): (known: seq<Known>)
    ensures DecodedAt(refs, decode, Decodable(refs, decode), known)
    ensures known == [] <==> forall i :: 0 <= i < |refs| ==> decode(refs[i].blob).None?
    decreases |refs|
  {
    NoneDecodable(refs, decode, Decodable(refs, decode));
    if |refs| == 0 then []
    else
      var rest := DecodeValid(refs[1..], decode);
      ConsDecodedAt(refs, decode, Decodable(refs[1..], decode), rest);
      assert Decodable(refs, decode) == Head(refs[0], decode) + Shift(Decodable(refs[1..], decode));
      Entry(refs[0], decode) + rest
  }

  /** `i` is the first index of a maximal score (what `np.argmax` returns). */
  predicate IsFirstMax(scores: seq<real>, i: nat)
  {
    && i < |scores|
    && (forall k :: 0 <= k < |scores| ==> scores[k] <= scores[i])
    && (forall k :: 0 <= k < i ==> scores[k] < scores[i])
  }

  /** `np.argmax` over `scores`, scanning from `from` with the best index so far. */
  function ArgMaxFrom(scores: seq<real>, from: nat, best: nat): (i: nat)
    requires best < from <= |scores|
    requires forall k :: 0 <= k < from ==> scores[k] <= scores[best]
    requires forall k :: 0 <= k < best ==> scores[k] < scores[best]
    ensures IsFirstMax(scores, i)
    decreases |scores| - from
  {
    if from == |scores| then best
    else if scores[from] > scores[best] then ArgMaxFrom(scores, from + 1, from)
    else ArgMaxFrom(scores, from + 1, best)
  }

  /** `np.argmax(scores)`: the first index of the maximal score. */
  function ArgMax(scores: seq<real>): (i: nat)
    requires |scores| > 0
    ensures IsFirstMax(scores, i)
  {
    ArgMaxFrom(scores, 1, 0)
  }

  /** There is only one first index of the maximum, so the tie-break is determined. */
  lemma FirstMaxUnique(scores: seq<real>, i: nat, j: nat)
    requires IsFirstMax(scores, i) && IsFirstMax(scores, j)
    ensures i == j
  {
    assert scores[i] <= scores[j] && scores[j] <= scores[i];
  }

  /** `cosine_similarity(probe, known_embeddings)[0]`: one score per decoded user. */
  function Scores(known: seq<Known>, probe: Embedding, be: Backend): (s: seq<real>)
    ensures |s| == |known|
    ensures forall k :: 0 <= k < |known| ==> s[k] == be.similarity(probe, known[k].embedding)
  {
    seq(|known|, k requires 0 <= k < |known| => be.similarity(probe, known[k].embedding))
  }

  /** `np.array(known_embeddings)` and `cosine_similarity` accept the
      encodings: every stored one has the probe's width, and that width is
      not zero. */
  predicate Comparable(known: seq<Known>, probe: Embedding)
  {
    |probe| > 0 && forall k :: 0 <= k < |known| ==> |known[k].embedding| == |probe|
  }

  /** The final step of `find_match_in_db`: `ValueError` when the encodings
      cannot be compared; otherwise the best-scoring decoded user (the first
      on a tie), accepted when its score reaches `threshold`. */
  function Decide(known: seq<Known>, probe: Embedding, be: Backend, threshold: real): (r: Result<MatchOutcome>)
    requires |known| > 0
    ensures r.Raised? <==> !Comparable(known, probe)
    ensures r.Raised? ==> r.error == ValueError
    ensures r.Ok? ==> r.value.Recognized? || r.value.NotRecognized?
    ensures r.Ok? ==> (r.value.Recognized? <==> exists k :: 0 <= k < |known| && be.similarity(probe, known[k].embedding) >= threshold)
    ensures r.Ok? && r.value.Recognized? ==>
              exists k: nat :: IsFirstMax(Scores(known, probe, be), k) && known[k].id == r.value.user
                               && be.similarity(probe, known[k].embedding) >= threshold
  {
    if !Comparable(known, probe) then Raised(ValueError)
    else
      var scores := Scores(known, probe, be);
      var best := ArgMax(scores);
      if scores[best] >= threshold then Ok(Recognized(known[best].id)) else Ok(NotRecognized)
  }

  /** The embedding of the working image, or `None`. */
  function Probe(img: NdArray, be: Backend): Option<Embedding>
    requires MeshReady(img)
  {
    ExtractEmbedding(Optimize(img, MaxWidth, be.resample).value, be).value
  }

  /** `find_match_in_db` of the mesh backend, with the threshold as a
      parameter. The checks run in this order: the image shape, the colour
      conversion and the detector's channel check, a frame without exactly
      one face (before the database is read), an empty reference set, no blob that decodes, and
      then the comparison and the thresholded argmax. */
  function FindMatchAt(img: NdArray, users: seq<User>, decode: Blob -> Option<Embedding>, be: Backend, threshold: real): (r: Result<MatchOutcome>)
    ensures |img.shape| < 2 ==> r == Raised(UnpackError)
    ensures !MeshReady(img) ==> r.Raised? && r.error == GenerateEncoding(img, be).error
    ensures r == Ok(NoFaceInCamera) <==> MeshReady(img) && Probe(img, be).None?
    ensures r == Ok(EmptyDatabase) <==> MeshReady(img) && Probe(img, be).Some? && UsersWithFaces(users) == []
    ensures r == Ok(NoValidEncoding) <==>
              MeshReady(img) && Probe(img, be).Some? && UsersWithFaces(users) != []
              && DecodeValid(UsersWithFaces(users), decode) == []
    ensures r == Raised(ValueError) <==>
              GenerateEncoding(img, be) == Raised(ValueError)
              || (MeshReady(img) && Probe(img, be).Some? && DecodeValid(UsersWithFaces(users), decode) != []
                  && !Comparable(DecodeValid(UsersWithFaces(users), decode), Probe(img, be).value))
    ensures MeshReady(img) && Probe(img, be).Some? && DecodeValid(UsersWithFaces(users), decode) != [] ==>
              r == Decide(DecodeValid(UsersWithFaces(users), decode), Probe(img, be).value, be, threshold)
  {
    match Optimize(img, MaxWidth, be.resample)
    case Raised(e) => Raised(e)
    case Ok(opt) =>
      match ExtractEmbedding(opt, be)
      case Raised(e) => Raised(e)
      case Ok(None) => Ok(NoFaceInCamera)
      case Ok(Some(probe)) =>
        var refs := UsersWithFaces(users);
        if |refs| == 0 then Ok(EmptyDatabase)
        else
          var known := DecodeValid(refs, decode);
          if |known| == 0 then Ok(NoValidEncoding)
          else Decide(known, probe, be, threshold)
  }

  /** Every entry of the decoded list is a stored user with that user's decoded blob. */
  lemma DecodedEntryIsUser(users: seq<User>, decode: Blob -> Option<Embedding>, k: nat)
    requires k < |DecodeValid(UsersWithFaces(users), decode)|
    ensures var e := DecodeValid(UsersWithFaces(users), decode)[k];
            exists i :: 0 <= i < |users| && users[i].id == e.id
                        && users[i].faceEncoding.Some? && decode(users[i].faceEncoding.value) == Some(e.embedding)
  {
    var refs := UsersWithFaces(users);
    var j := Decodable(refs, decode)[k];
    var i :| 0 <= i < |users| && users[i].id == refs[j].id && users[i].faceEncoding == Some(refs[j].blob);
  }

  /** Every stored user whose blob decodes has an entry in the decoded list. */
  lemma UserHasDecodedEntry(users: seq<User>, decode: Blob -> Option<Embedding>, i: nat)
    requires i < |users| && users[i].faceEncoding.Some? && decode(users[i].faceEncoding.value).Some?
    ensures var known := DecodeValid(UsersWithFaces(users), decode);
            exists k :: 0 <= k < |known| && known[k].embedding == decode(users[i].faceEncoding.value).value
  {
    var refs := UsersWithFaces(users);
    var idx := Decodable(refs, decode);
    UsersWithFacesComplete(users, i);
    var j :| 0 <= j < |refs| && refs[j] == Reference(users[i].id, users[i].faceEncoding.value);
    assert j in idx;
    var k :| 0 <= k < |idx| && idx[k] == j;
    assert DecodeValid(refs, decode)[k].embedding == decode(users[i].faceEncoding.value).value;
  }

  /** A recognition or a rejection is the decision over the decoded table. */
  lemma Decided(img: NdArray, users: seq<User>, decode: Blob -> Option<Embedding>, be: Backend, threshold: real)
    ensures var r := FindMatchAt(img, users, decode, be, threshold);
            r.Ok? && (r.value.Recognized? || r.value.NotRecognized?) ==>
              && MeshReady(img) && Probe(img, be).Some? && DecodeValid(UsersWithFaces(users), decode) != []
              && r == Decide(DecodeValid(UsersWithFaces(users), decode), Probe(img, be).value, be, threshold)
  {
  }

  /** A recognised user is a stored user whose decoded blob scores at least
      the threshold against the probe. */
  lemma RecognizedScoresAtLeast(img: NdArray, users: seq<User>, decode: Blob -> Option<Embedding>, be: Backend, threshold: real)
    ensures var r := FindMatchAt(img, users, decode, be, threshold);
            r.Ok? && r.value.Recognized? ==>
              MeshReady(img) && Probe(img, be).Some? &&
              exists i :: 0 <= i < |users| && users[i].id == r.value.user
                          && users[i].faceEncoding.Some? && decode(users[i].faceEncoding.value).Some?
                          && be.similarity(Probe(img, be).value, decode(users[i].faceEncoding.value).value) >= threshold
  {
    var r := FindMatchAt(img, users, decode, be, threshold);
    Decided(img, users, decode, be, threshold);
    if r.Ok? && r.value.Recognized? {
      var known := DecodeValid(UsersWithFaces(users), decode);
      var probe := Probe(img, be).value;
      var k: nat :| IsFirstMax(Scores(known, probe, be), k) && known[k].id == r.value.user
                    && be.similarity(probe, known[k].embedding) >= threshold;
      DecodedEntryIsUser(users, decode, k);
    }
  }

  /** A rejection means that every stored blob that decodes scores below the threshold. */
  lemma RejectedScoresBelow(img: NdArray, users: seq<User>, decode: Blob -> Option<Embedding>, be: Backend, threshold: real)
    ensures FindMatchAt(img, users, decode, be, threshold) == Ok(NotRecognized) ==>
              MeshReady(img) && Probe(img, be).Some? &&
              forall i :: 0 <= i < |users| && users[i].faceEncoding.Some? && decode(users[i].faceEncoding.value).Some? ==>
                be.similarity(Probe(img, be).value, decode(users[i].faceEncoding.value).value) < threshold
  {
    Decided(img, users, decode, be, threshold);
    if FindMatchAt(img, users, decode, be, threshold) == Ok(NotRecognized) {
      var probe := Probe(img, be).value;
      forall i | 0 <= i < |users| && users[i].faceEncoding.Some? && decode(users[i].faceEncoding.value).Some?
        ensures be.similarity(probe, decode(users[i].faceEncoding.value).value) < threshold
      {
        UserHasDecodedEntry(users, decode, i);
      }
    }
  }

  /** A ready frame with a face whose probe can be compared with the decoded
      table is recognised as soon as one stored blob that decodes scores at
      least the threshold against it. */
  lemma RecognizedWhenSomeScoreReaches(img: NdArray, users: seq<User>, decode: Blob -> Option<Embedding>, be: Backend, threshold: real)
    ensures (&& MeshReady(img) && Probe(img, be).Some?
             && Comparable(DecodeValid(UsersWithFaces(users), decode), Probe(img, be).value)
             && exists i :: 0 <= i < |users| && users[i].faceEncoding.Some? && decode(users[i].faceEncoding.value).Some?
                            && be.similarity(Probe(img, be).value, decode(users[i].faceEncoding.value).value) >= threshold)
            ==> FindMatchAt(img, users, decode, be, threshold).Ok? && FindMatchAt(img, users, decode, be, threshold).value.Recognized?
  {
    if && MeshReady(img) && Probe(img, be).Some?
       && Comparable(DecodeValid(UsersWithFaces(users), decode), Probe(img, be).value)
       && exists i :: 0 <= i < |users| && users[i].faceEncoding.Some? && decode(users[i].faceEncoding.value).Some?
                      && be.similarity(Probe(img, be).value, decode(users[i].faceEncoding.value).value) >= threshold
    {
      var probe := Probe(img, be).value;
      var i :| 0 <= i < |users| && users[i].faceEncoding.Some? && decode(users[i].faceEncoding.value).Some?
               && be.similarity(probe, decode(users[i].faceEncoding.value).value) >= threshold;
      UserHasDecodedEntry(users, decode, i);
      var known := DecodeValid(UsersWithFaces(users), decode);
      var k :| 0 <= k < |known| && known[k].embedding == decode(users[i].faceEncoding.value).value;
      assert be.similarity(probe, known[k].embedding) >= threshold;
      assert Decide(known, probe, be, threshold).Ok?;
    }
  }

  /** `find_match_in_db` with its threshold of 0.85: a recognised user's
      stored encoding scores at least 0.85 against the probe, and it is the
      user at the first index of the highest score; a ready frame whose
      probe is comparable with the table is recognised when some stored
      encoding reaches 0.85; and a rejection means every stored encoding
      that decodes scores below it. */
  function FindMatch(img: NdArray, users: seq<User>, decode: Blob -> Option<Embedding>, be: Backend): (r: Result<MatchOutcome>)
    ensures r.Ok? && r.value.Recognized? ==>
              MeshReady(img) && Probe(img, be).Some? &&
              exists i :: 0 <= i < |users| && users[i].id == r.value.user
                          && users[i].faceEncoding.Some? && decode(users[i].faceEncoding.value).Some?
                          && be.similarity(Probe(img, be).value, decode(users[i].faceEncoding.value).value) >= Threshold
    ensures r.Ok? && r.value.Recognized? ==>
              MeshReady(img) && Probe(img, be).Some? && DecodeValid(UsersWithFaces(users), decode) != [] &&
              exists k: nat :: IsFirstMax(Scores(DecodeValid(UsersWithFaces(users), decode), Probe(img, be).value, be), k)
                               && DecodeValid(UsersWithFaces(users), decode)[k].id == r.value.user
    ensures (&& MeshReady(img) && Probe(img, be).Some?
             && Comparable(DecodeValid(UsersWithFaces(users), decode), Probe(img, be).value)
             && exists i :: 0 <= i < |users| && users[i].faceEncoding.Some? && decode(users[i].faceEncoding.value).Some?
                            && be.similarity(Probe(img, be).value, decode(users[i].faceEncoding.value).value) >= Threshold)
            ==> r.Ok? && r.value.Recognized?
    ensures r == Ok(NotRecognized) ==>
              MeshReady(img) && Probe(img, be).Some? &&
              forall i :: 0 <= i < |users| && users[i].faceEncoding.Some? && decode(users[i].faceEncoding.value).Some? ==>
                be.similarity(Probe(img, be).value, decode(users[i].faceEncoding.value).value) < Threshold
  {
    RecognizedScoresAtLeast(img, users, decode, be, Threshold);
    RejectedScoresBelow(img, users, decode, be, Threshold);
    RecognizedWhenSomeScoreReaches(img, users, decode, be, Threshold);
    Decided(img, users, decode, be, Threshold);
    FindMatchAt(img, users, decode, be, Threshold)
  }

  /** A recognised user is a stored user whose blob decodes. */
  lemma RecognizedUserDecodes(img: NdArray, users: seq<User>, decode: Blob -> Option<Embedding>, be: Backend, threshold: real)
    ensures var r := FindMatchAt(img, users, decode, be, threshold);
            r.Ok? && r.value.Recognized? ==>
              exists i :: 0 <= i < |users| && users[i].id == r.value.user
                          && users[i].faceEncoding.Some? && decode(users[i].faceEncoding.value).Some?
  {
    RecognizedScoresAtLeast(img, users, decode, be, threshold);
  }

  /** Lowering the threshold never loses a recognition, and the same user is
      recognised: the argmax does not depend on the threshold. */
  lemma LowerThresholdKeepsMatch(img: NdArray, users: seq<User>, decode: Blob -> Option<Embedding>, be: Backend, high: real, low: real)
    requires low <= high
    ensures var r := FindMatchAt(img, users, decode, be, high);
            r.Ok? && r.value.Recognized? ==> FindMatchAt(img, users, decode, be, low) == r
  {
  }

  /** A rejected frame stays rejected under any higher threshold. */
  lemma HigherThresholdKeepsReject(img: NdArray, users: seq<User>, decode: Blob -> Option<Embedding>, be: Backend, low: real, high: real)
    requires low <= high
    ensures FindMatchAt(img, users, decode, be, low) == Ok(NotRecognized) ==>
              FindMatchAt(img, users, decode, be, high) == Ok(NotRecognized)
  {
  }

  /** Handing the matcher a one-dimensional array, such as an encoding,
      raises before anything else is looked at. */
  lemma FindMatchRejectsEncoding(e: Embedding, users: seq<User>, decode: Blob -> Option<Embedding>, be: Backend)
    ensures FindMatch(AsArray(e), users, decode, be) == Raised(UnpackError)
  {
  }
}

=== FILE: main.dfy ===
/** The two routes of main.py that change the store: face registration
    (`process_face_registration`) and check-in (`process_attendance`).
    Each request is decided by a fixed sequence of checks, and the first
    check that fails decides the answer; only the last step writes. */
module Attendance {
  import opened Base
  import opened PyStr
  import opened Models
  import opened Vision
  import MeshMatcher

  /** The JSON body of a request: `data.get('image')` and `data.get('subject_id')`. */
  datatype Request = Request(image: Option<string>, subjectId: Option<SubjectId>)

  /** Python truthiness of a text field: present and not empty. */
  predicate HasText(v: Option<string>)
  {
    v.Some? && v.value != ""
  }

  /** Python truthiness of a numeric field: present and not zero. */
  predicate HasId(v: Option<SubjectId>)
  {
    v.Some? && v.value != 0
  }

  /** The routines the routes call, as functions of their arguments. */
  datatype Services = Services(
    decodeImage: string -> Option<NdArray>,        // b64decode, Image.open, convert('RGB'), np.array; None when it raises
    encode: NdArray -> Result<Option<Embedding>>, // generate_encoding_from_image
    identify: NdArray -> Result<Option<UserId>>)  // find_match_in_db on the frame, read as the matched user

  // ---- the data URL ----

  /** `image_data.split(',')[1]`: the text between the first and the second
      comma of a data URL (or up to its end); `IndexError` without a comma. */
  function Payload(dataUrl: string): (r: Result<string>)
    ensures r.Raised? <==> ',' !in dataUrl
    ensures r.Raised? ==> r.error == IndexError
    ensures r.Ok? ==> exists head, tail :: dataUrl == head + [','] + r.value + tail
                        && ',' !in head && ',' !in r.value && (tail == [] || tail[0] == ',')
  {
    var parts := Split(dataUrl, ',');
    if |parts| < 2 then
      assert Join(parts, ',') == parts[0];
      Raised(IndexError)
    else
      JoinFirstTwo(parts, ',');
      assert dataUrl == parts[0] + [','] + parts[1] + AfterSecond(parts, ',');
      assert dataUrl[|parts[0]|] == ',';
      Ok(parts[1])
  }

  /** What follows the second of two or more joined pieces: nothing, or the
      separator and the remaining pieces. */
  function AfterSecond(parts: seq<string>, sep: char): (tail: string)
    requires |parts| >= 2
    ensures tail == [] || tail[0] == sep
  {
    if |parts| == 2 then "" else [sep] + Join(parts[2..], sep)
  }

  /** Two or more pieces join as the first, the separator, the second, and
      what follows the second. */
  lemma JoinFirstTwo(parts: seq<string>, sep: char)
    requires |parts| >= 2
    ensures Join(parts, sep) == parts[0] + [sep] + parts[1] + AfterSecond(parts, sep)
  {
    if |parts| > 2 {
      assert parts[1..][1..] == parts[2..];
    }
  }

  /** A data URL `head,body` (optionally followed by more comma-separated
      text) yields `body`: the payload round-trips. */
  lemma PayloadOfDataUrl(head: string, body: string, tail: string)
    requires ',' !in head && ',' !in body
    requires tail == [] || tail[0] == ','
    ensures Payload(head + [','] + body + tail) == Ok(body)
  {
    assert head + [','] + body + tail == head + [','] + (body + tail);
    SplitAfterFirst(head, body + tail, ',');
    SplitFirstPiece(body, tail, ',');
  }

  /** Lines 40-45 and 81-84 of the routes: the data URL decoded to an RGB array. */
  function DecodeFrame(dataUrl: string, decodeImage: string -> Option<NdArray>): (r: Result<NdArray>)
    ensures ',' !in dataUrl ==> r == Raised(IndexError)
    ensures r.Ok? <==> Payload(dataUrl).Ok? && decodeImage(Payload(dataUrl).value).Some?
    ensures r.Ok? ==> decodeImage(Payload(dataUrl).value) == Some(r.value)
  {
    match Payload(dataUrl)
    case Raised(e) => Raised(e)
    case Ok(text) =>
      match decodeImage(text)
      case None => Raised(ImageError)
      case Some(img) => Ok(img)
  }

  // ---- registration ----

  /** The answers of `process_face_registration`. */
  datatype RegVerdict =
    | NoImage                  // "Tidak ada data gambar"
    | RegCrashed(error: PyError) // "Error: ..."
    | FaceNotFound             // "Wajah tidak terdeteksi. Pastikan wajah terlihat jelas."
    | Registered               // "Registrasi wajah berhasil!"

  datatype Registration = Registration(verdict: RegVerdict, users: seq<User>)

  /** The frame of a registration request decodes and its encoding is computed. */
  function RegEncoding(image: Option<string>, sv: Services): Result<Option<Embedding>>
    requires HasText(image)
  {
    match DecodeFrame(image.value, sv.decodeImage)
    case Raised(e) => Raised(e)
    case Ok(frame) => sv.encode(frame)
  }

  /** `process_face_registration` for the logged-in user `users[me]`:
      a missing image, an undecodable frame or a frame without a single face
      leaves the table as it is; otherwise the user's blob is overwritten
      with the serialised new encoding and nothing else changes. */
  function Register(image: Option<string>, users: seq<User>, me: nat, sv: Services, toBytes: Embedding -> Blob): (r: Registration)
    requires me < |users|
    ensures r.verdict == NoImage <==> !HasText(image)
    ensures r.verdict.RegCrashed? <==> HasText(image) && RegEncoding(image, sv).Raised?
    ensures r.verdict == FaceNotFound <==> HasText(image) && RegEncoding(image, sv) == Ok(None)
    ensures !r.verdict.Registered? ==> r.users == users
    ensures r.verdict.Registered? ==>
              && HasText(image) && RegEncoding(image, sv).Ok? && RegEncoding(image, sv).value.Some?
              && |r.users| == |users|
              && r.users[me] == users[me].(faceEncoding := Some(toBytes(RegEncoding(image, sv).value.value)))
              && forall i :: 0 <= i < |users| && i != me ==> r.users[i] == users[i]
  {
    if !HasText(image) then Registration(NoImage, users)
    else
      match RegEncoding(image, sv)
      case Raised(e) => Registration(RegCrashed(e), users)
      case Ok(None) => Registration(FaceNotFound, users)
      case Ok(Some(e)) => Registration(Registered, users[me := users[me].(faceEncoding := Some(toBytes(e)))])
  }

  /** Re-registering overwrites: after two registrations of the same user of
      which the second succeeds, the stored blob is the second encoding,
      whatever the first one did. */
  lemma ReRegistrationKeepsLatest(image1: Option<string>, image2: Option<string>, users: seq<User>, me: nat,
                                  sv: Services, toBytes: Embedding -> Blob)
    requires me < |users|
    requires Register(image2, Register(image1, users, me, sv, toBytes).users, me, sv, toBytes).verdict.Registered?
    ensures var after := Register(image2, Register(image1, users, me, sv, toBytes).users, me, sv, toBytes).users;
            && after[me] == users[me].(faceEncoding := Some(toBytes(RegEncoding(image2, sv).value.value)))
            && forall i :: 0 <= i < |users| && i != me ==> after[i] == users[i]
  {
  }

  // ---- check-in ----

  /** The answers of `process_attendance`. */
  datatype Verdict =
    | Incomplete            // "Data tidak lengkap"
    | Crashed(error: PyError) // "Error: ..."
    | NoFace                // "Wajah tidak terdeteksi"
    | Unrecognized          // "Wajah tidak dikenali"
    | AlreadyPresent        // "Anda sudah melakukan presensi hari ini"
    | Present(user: UserId) // "Presensi berhasil untuk <name>"

  datatype Outcome = Outcome(verdict: Verdict, records: seq<AttendanceRecord>)

  /** Both fields of the request are truthy. */
  predicate Complete(req: Request)
  {
    HasText(req.image) && HasId(req.subjectId)
  }

  /** The decoded frame of a complete request. */
  function Frame(req: Request, sv: Services): Result<NdArray>
    requires Complete(req)
  {
    DecodeFrame(req.image.value, sv.decodeImage)
  }

  /** The first three checks pass: the request is complete, its frame decodes,
      and the frame has an encoding. */
  predicate FaceFound(req: Request, sv: Services)
  {
    FaceFoundWith(req, sv.decodeImage, sv.encode)
  }

  /** `FaceFound` for a decoder and an encoder given on their own. */
  predicate FaceFoundWith(req: Request, decodeImage: string -> Option<NdArray>, encode: NdArray -> Result<Option<Embedding>>)
  {
    && Complete(req)
    && DecodeFrame(req.image.value, decodeImage).Ok?
    && encode(DecodeFrame(req.image.value, decodeImage).value).Ok?
    && encode(DecodeFrame(req.image.value, decodeImage).value).value.Some?
  }

  /** The matcher's answer for a frame with a face. */
  function Identified(req: Request, sv: Services): Result<Option<UserId>>
    requires FaceFound(req, sv)
  {
    sv.identify(Frame(req, sv).value)
  }

  /** A record already exists for this user, subject and day. */
  predicate HasRecord(records: seq<AttendanceRecord>, user: UserId, subject: SubjectId, day: Day)
  {
    exists i :: 0 <= i < |records| && records[i].user == user && records[i].subject == subject && records[i].day == day
  }

  /** `process_attendance`, with the matcher applied to the decoded frame.
      `me` is the logged-in user, which the route never consults: the record
      goes to whoever the matcher names. */
  function Process(req: Request, me: UserId, records: seq<AttendanceRecord>, today: Day, sv: Services): (r: Outcome)
    ensures r.verdict == Incomplete <==> !Complete(req)
    ensures r.verdict == NoFace <==>
              Complete(req) && Frame(req, sv).Ok? && sv.encode(Frame(req, sv).value) == Ok(None)
    ensures r.verdict.Crashed? ==> Complete(req)
    ensures r.verdict == Unrecognized <==> FaceFound(req, sv) && Identified(req, sv) == Ok(None)
    ensures r.verdict == AlreadyPresent <==>
              && FaceFound(req, sv) && Identified(req, sv).Ok? && Identified(req, sv).value.Some?
              && HasRecord(records, Identified(req, sv).value.value, req.subjectId.value, today)
    ensures r.verdict.Present? <==>
              && FaceFound(req, sv) && Identified(req, sv).Ok? && Identified(req, sv).value.Some?
              && !HasRecord(records, Identified(req, sv).value.value, req.subjectId.value, today)
    ensures r.verdict.Present? ==> Identified(req, sv) == Ok(Some(r.verdict.user))
    ensures !r.verdict.Present? ==> r.records == records
    ensures r.verdict.Present? ==>
              r.records == records + [AttendanceRecord(r.verdict.user, req.subjectId.value, Hadir, today)]
  {
    if !Complete(req) then Outcome(Incomplete, records)
    else
      match Frame(req, sv)
      case Raised(e) => Outcome(Crashed(e), records)
      case Ok(frame) =>
        match sv.encode(frame)
        case Raised(e) => Outcome(Crashed(e), records)
        case Ok(None) => Outcome(NoFace, records)
        case Ok(Some(_)) =>
          match sv.identify(frame)
          case Raised(e) => Outcome(Crashed(e), records)
          case Ok(None) => Outcome(Unrecognized, records)
          case Ok(Some(u)) =>
            var subject := req.subjectId.value;
            if HasRecord(records, u, subject, today) then Outcome(AlreadyPresent, records)
            else Outcome(Present(u), records + [AttendanceRecord(u, subject, Hadir, today)])
  }

  /** The two records are for the same user, subject and day. */
  predicate SameSlot(a: AttendanceRecord, b: AttendanceRecord)
  {
    a.user == b.user && a.subject == b.subject && a.day == b.day
  }

  /** At most one record per user, subject and day. */
  predicate OnePerSlot(records: seq<AttendanceRecord>)
  {
    forall i, j :: 0 <= i < j < |records| ==> !SameSlot(records[i], records[j])
  }

  /** A check-in never creates a second record for a user, subject and day. */
  lemma ProcessKeepsOnePerSlot(req: Request, me: UserId, records: seq<AttendanceRecord>, today: Day, sv: Services)
    requires OnePerSlot(records)
    ensures OnePerSlot(Process(req, me, records, today, sv).records)
  {
    var r := Process(req, me, records, today, sv);
    if r.verdict.Present? {
      var added := AttendanceRecord(r.verdict.user, req.subjectId.value, Hadir, today);
      assert forall i :: 0 <= i < |records| ==> !SameSlot(records[i], added);
    }
  }

  /** Once a check-in has been admitted, every later check-in on the same day
      for the same subject whose frame the matcher gives to the same user is
      answered "already present", whoever is logged in, and writes nothing. */
  lemma SecondCheckInRejected(req1: Request, req2: Request, me1: UserId, me2: UserId,
                              records: seq<AttendanceRecord>, today: Day, sv: Services)
    requires Process(req1, me1, records, today, sv).verdict.Present?
    requires FaceFound(req2, sv) && req2.subjectId == req1.subjectId
    requires Identified(req2, sv) == Ok(Some(Process(req1, me1, records, today, sv).verdict.user))
    ensures var after := Process(req1, me1, records, today, sv).records;
            Process(req2, me2, after, today, sv) == Outcome(AlreadyPresent, after)
  {
    var first := Process(req1, me1, records, today, sv);
    assert first.records[|records|].user == first.verdict.user;
    assert HasRecord(first.records, first.verdict.user, req2.subjectId.value, today);
  }

  /** The logged-in user plays no part in the decision: the same request
      gives the same answer and the same records for any session. */
  lemma AttributionIgnoresSession(req: Request, me1: UserId, me2: UserId, records: seq<AttendanceRecord>, today: Day, sv: Services)
    ensures Process(req, me1, records, today, sv) == Process(req, me2, records, today, sv)
  {
  }

  // ---- the deployed wiring ----

  /** The mesh matcher's answer read as "the matched user, or None". */
  function MatchedUser(o: Result<MatchOutcome>): (r: Result<Option<UserId>>)
    ensures r.Raised? <==> o.Raised?
    ensures r.Ok? && r.value.Some? <==> o.Ok? && o.value.Recognized?
    ensures r.Ok? && r.value.Some? ==> r.value.value == o.value.user
  {
    match o
    case Raised(e) => Raised(e)
    case Ok(Recognized(u)) => Ok(Some(u))
    case Ok(_) => Ok(None)
  }

  /** The services main.py imports: the mesh backend over the current user table. */
  function MeshServices(decodeImage: string -> Option<NdArray>, users: seq<User>,
                        decode: Blob -> Option<Embedding>, be: MeshMatcher.Backend): Services
  {
    Services(decodeImage,
             frame => MeshMatcher.GenerateEncoding(frame, be),
             frame => MatchedUser(MeshMatcher.FindMatch(frame, users, decode, be)))
  }

  /** With the mesh backend, an admitted check-in is always recorded for a
      stored user whose face blob decodes. */
  lemma MeshCheckInNamesRegisteredUser(req: Request, me: UserId, records: seq<AttendanceRecord>, today: Day,
                                       decodeImage: string -> Option<NdArray>, users: seq<User>,
                                       decode: Blob -> Option<Embedding>, be: MeshMatcher.Backend)
    ensures var v := Process(req, me, records, today, MeshServices(decodeImage, users, decode, be)).verdict;
            v.Present? ==>
              exists i :: 0 <= i < |users| && users[i].id == v.user
                          && users[i].faceEncoding.Some? && decode(users[i].faceEncoding.value).Some?
  {
    var sv := MeshServices(decodeImage, users, decode, be);
    if Process(req, me, records, today, sv).verdict.Present? {
      var frame := Frame(req, sv).value;
      var o := MeshMatcher.FindMatch(frame, users, decode, be);
      assert sv.identify(frame) == MatchedUser(o);
      MeshMatcher.RecognizedUserDecodes(frame, users, decode, be, MeshMatcher.Threshold);
    }
  }

  // ---- the route as written ----

  /** `process_attendance` as written: the route hands the matcher the
      probe *encoding* (line 93), and treats the `(user_id, message)` pair it
      returns as the user (lines 95 and 101). A non-empty tuple is always
      truthy and has no `.id`, so a frame with a face always ends in the
      generic error answer and nothing is recorded. */
  function ProcessAsWritten<M>(req: Request, me: UserId, records: seq<AttendanceRecord>, today: Day,
                               decodeImage: string -> Option<NdArray>, encode: NdArray -> Result<Option<Embedding>>,
                               findMatch: NdArray -> Result<(Option<UserId>, M)>): (r: Outcome)
    ensures r.records == records && !r.verdict.Present?
    ensures r.verdict == Incomplete <==> !Complete(req)
    ensures FaceFoundWith(req, decodeImage, encode) ==> r.verdict.Crashed?
    ensures FaceFoundWith(req, decodeImage, encode) && (forall a :: findMatch(a).Ok?) ==> r.verdict == Crashed(AttributeError)
  {
    if !Complete(req) then Outcome(Incomplete, records)
    else
      match DecodeFrame(req.image.value, decodeImage)
      case Raised(e) => Outcome(Crashed(e), records)
      case Ok(frame) =>
        match encode(frame)
        case Raised(e) => Outcome(Crashed(e), records)
        case Ok(None) => Outcome(NoFace, records)
        case Ok(Some(captured)) =>
          match findMatch(AsArray(captured))
          case Raised(e) => Outcome(Crashed(e), records)
          case Ok(_) => Outcome(Crashed(AttributeError), records)
  }

  /** The mesh matcher's answer as the pair `find_match_in_db` returns; the
      outcome tag stands for the message. */
  function AsReturned(o: Result<MatchOutcome>): Result<(Option<UserId>, MatchOutcome)>
  {
    match o
    case Raised(e) => Raised(e)
    case Ok(Recognized(u)) => Ok((Some(u), o.value))
    case Ok(m) => Ok((None, m))
  }

  /** With the deployed mesh matcher the as-written route fails even earlier:
      the encoding has rank one, so resizing it raises while unpacking its shape. */
  lemma AsWrittenMeshRouteRaises(req: Request, me: UserId, records: seq<AttendanceRecord>, today: Day,
                                 decodeImage: string -> Option<NdArray>, users: seq<User>,
                                 decode: Blob -> Option<Embedding>, be: MeshMatcher.Backend)
    requires FaceFound(req, MeshServices(decodeImage, users, decode, be))
    ensures ProcessAsWritten(req, me, records, today, decodeImage,
                             frame => MeshMatcher.GenerateEncoding(frame, be),
                             frame => AsReturned(MeshMatcher.FindMatch(frame, users, decode, be))).verdict
            == Crashed(UnpackError)
  {
    var sv := MeshServices(decodeImage, users, decode, be);
    var captured := sv.encode(Frame(req, sv).value).value.value;
    MeshMatcher.FindMatchRejectsEncoding(captured, users, decode, be);
  }

  /** The sample data URL of the counterexample and its payload. `QQ` is a
      placeholder: image decoding is the abstract `decodeImage` parameter, and
      the services below map every payload to the chosen frame. It stands for
      the base64 text of an image holding one face the matcher recognises. */
  const SampleUrl := "data:image/jpeg;base64,QQ"

  lemma SamplePayload()
    ensures Payload(SampleUrl) == Ok("QQ")
  {
    var head := "data:image/jpeg;base64";
    assert ',' !in head by {
      assert forall k :: 0 <= k < |head| ==> head[k] != ',';
    }
    assert head + [','] + "QQ" + "" == SampleUrl;
    PayloadOfDataUrl(head, "QQ", "");
  }

  /** Services that decode every payload to `frame`, find the face `e` in it
      and recognise user `u`. */
  function Recognizing(frame: NdArray, e: Embedding, u: UserId): (sv: Services)
    ensures sv.decodeImage("QQ") == Some(frame)
    ensures sv.encode(frame) == Ok(Some(e)) && sv.identify(frame) == Ok(Some(u))
  {
    Services(_ => Some(frame), _ => Ok(Some(e)), _ => Ok(Some(u)))
  }

  /** The sample request passes the first three checks and the matcher names `u`. */
  lemma SampleRecognized(frame: NdArray, e: Embedding, u: UserId)
    ensures var req, sv := Request(Some(SampleUrl), Some(1)), Recognizing(frame, e, u);
            FaceFound(req, sv) && Identified(req, sv) == Ok(Some(u))
  {
    SamplePayload();
    var req, sv := Request(Some(SampleUrl), Some(1)), Recognizing(frame, e, u);
    assert Frame(req, sv) == Ok(frame);
    assert FaceFound(req, sv);
    assert sv.identify(frame) == Ok(Some(u));
  }

  /** The intended route admits the sample request for `u`. */
  lemma SampleAdmitted(frame: NdArray, e: Embedding, u: UserId)
    ensures Process(Request(Some(SampleUrl), Some(1)), u, [], 0, Recognizing(frame, e, u))
            == Outcome(Present(u), [AttendanceRecord(u, 1, Hadir, 0)])
  {
    SampleRecognized(frame, e, u);
    assert !HasRecord([], u, 1, 0);
  }

  /** A matcher that recognises `u` in any array it is given. */
  function Answering(u: UserId): (findMatch: NdArray -> Result<(Option<UserId>, string)>)
    ensures forall a :: findMatch(a) == Ok((Some(u), "Wajah dikenali."))
  {
    _ => Ok((Some(u), "Wajah dikenali."))
  }

  /** The route as written answers the sample request with an error. */
  lemma SampleCrashesAsWritten(frame: NdArray, e: Embedding, u: UserId)
    ensures var sv := Recognizing(frame, e, u);
            ProcessAsWritten(Request(Some(SampleUrl), Some(1)), u, [], 0, sv.decodeImage, sv.encode, Answering(u)).verdict
            == Crashed(AttributeError)
  {
    SamplePayload();
    var sv := Recognizing(frame, e, u);
    assert FaceFoundWith(Request(Some(SampleUrl), Some(1)), sv.decodeImage, sv.encode);
  }

  /** The discrepancy on one input: a complete request whose frame has a face
      the matcher recognises as `u` is admitted by the intended route and
      answered with an error by the route as written. */
  lemma AsWrittenLosesRecognizedCheckIn(frame: NdArray, e: Embedding, u: UserId)
    ensures var req, sv := Request(Some(SampleUrl), Some(1)), Recognizing(frame, e, u);
            && Process(req, u, [], 0, sv).verdict == Present(u)
            && ProcessAsWritten(req, u, [], 0, sv.decodeImage, sv.encode, Answering(u)).verdict == Crashed(AttributeError)
  {
    SampleAdmitted(frame, e, u);
    SampleCrashesAsWritten(frame, e, u);
  }
}

=== FILE: models.dfy ===
/** The stored entities of the attendance tracker: users with their optional
    face blob, course subjects, and attendance records; plus the subject
    validator `Subject.validate_data`. */
module Models {
  import opened Base
  import opened PyStr

  type UserId = int
  type SubjectId = int

  /** A calendar day in the attendance timezone, as a day number. */
  type Day = int

  /** A stored face encoding, as raw bytes. */
  type Blob = seq<bv8>

  /** A row of the `users` table; `faceEncoding` is `None` until the user registers a face. */
  datatype User = User(id: UserId, name: string, isAdmin: bool, faceEncoding: Option<Blob>)

  /** A row of the `subjects` table, as the form fills it: every text field may be `None`. */
  datatype Subject = Subject(code: Option<string>, name: Option<string>, description: Option<string>)

  /** A row of the `attendance_records` table; the timestamp is kept as its day. */
  datatype AttendanceRecord = AttendanceRecord(user: UserId, subject: SubjectId, status: string, day: Day)

  /** The status every admitted check-in is recorded with. */
  const Hadir := "hadir"

  /** A user that has a stored face blob, as the matchers read it. */
  datatype Reference = Reference(id: UserId, blob: Blob)

  /** `User.query.filter(User.face_encoding.isnot(None)).all()`: the users with a
      stored blob, in table order. */
  function UsersWithFaces(users: seq<User>): (refs: seq<Reference>)
    ensures |refs| <= |users|
    ensures forall k :: 0 <= k < |refs| ==>
              exists i :: 0 <= i < |users| && users[i].id == refs[k].id && users[i].faceEncoding == Some(refs[k].blob)
    ensures refs == [] <==> forall i :: 0 <= i < |users| ==> users[i].faceEncoding.None?
    decreases |users|
  {
    if |users| == 0 then []
    else
      var rest := UsersWithFaces(users[1..]);
      assert forall k :: 0 <= k < |rest| ==>
               exists i :: 0 <= i < |users| && users[i].id == rest[k].id && users[i].faceEncoding == Some(rest[k].blob) by {
        forall k | 0 <= k < |rest|
          ensures exists i :: 0 <= i < |users| && users[i].id == rest[k].id && users[i].faceEncoding == Some(rest[k].blob)
        {
          var i :| 0 <= i < |users[1..]| && users[1..][i].id == rest[k].id && users[1..][i].faceEncoding == Some(rest[k].blob);
          assert users[i + 1] == users[1..][i];
        }
      }
      match users[0].faceEncoding
      case None => rest
      case Some(b) => [Reference(users[0].id, b)] + rest
  }

  /** Every user with a stored blob is listed: the query misses no one. */
  lemma {:induction false} UsersWithFacesComplete(users: seq<User>, i: nat)
    requires i < |users| && users[i].faceEncoding.Some?
    ensures Reference(users[i].id, users[i].faceEncoding.value) in UsersWithFaces(users)
    decreases i
  {
    var head := if users[0].faceEncoding.Some? then [Reference(users[0].id, users[0].faceEncoding.value)] else [];
    assert UsersWithFaces(users) == head + UsersWithFaces(users[1..]);
    if i > 0 {
      assert users[1..][i - 1] == users[i];
      UsersWithFacesComplete(users[1..], i - 1);
    }
  }

  // ---- Subject.validate_data ----

  /** The four messages of the validator, in the order it checks. */
  datatype SubjectError = CodeRequired | NameRequired | CodeTooLong | NameTooLong
  {
    /** The text appended to the error list. */
    function Text(): string
    {
      match this
      case CodeRequired => "Kode mata kuliah harus diisi"
      case NameRequired => "Nama mata kuliah harus diisi"
      case CodeTooLong => "Kode mata kuliah maksimal 20 karakter"
      case NameTooLong => "Nama mata kuliah maksimal 255 karakter"
    }

    /** The position of the check that produces this message. */
    function Rank(): nat
    {
      match this
      case CodeRequired => 0
      case NameRequired => 1
      case CodeTooLong => 2
      case NameTooLong => 3
    }
  }

  const MaxCodeLength := 20
  const MaxNameLength := 255

  /** `not v or not v.strip()`: the field is missing, empty or only whitespace. */
  predicate Blank(v: Option<string>)
  {
    v.None? || Strip(v.value) == ""
  }

  /** A subject with both texts present, non-blank and within their column widths. */
  predicate WellFormed(s: Subject)
  {
    && s.code.Some? && s.name.Some?
    && 0 < |Strip(s.code.value)| <= MaxCodeLength
    && 0 < |Strip(s.name.value)| <= MaxNameLength
  }

  /** The messages appear in check order, each at most once. */
  predicate InCheckOrder(errors: seq<SubjectError>)
  {
    forall i, j :: 0 <= i < j < |errors| ==> errors[i].Rank() < errors[j].Rank()
  }

  /** `[e]` when the check fires, nothing otherwise. */
  function When(fires: bool, e: SubjectError): seq<SubjectError>
  {
    if fires then [e] else []
  }

  /** The four checks appended in order, with blank and too long exclusive
      for each field, give a list in check order that names exactly the
      checks that fire and holds at most two messages. */
  lemma FourChecks(codeBlank: bool, nameBlank: bool, codeLong: bool, nameLong: bool)
    requires !(codeBlank && codeLong) && !(nameBlank && nameLong)
    ensures var es := When(codeBlank, CodeRequired) + When(nameBlank, NameRequired) + When(codeLong, CodeTooLong) + When(nameLong, NameTooLong);
            && (CodeRequired in es <==> codeBlank) && (NameRequired in es <==> nameBlank)
            && (CodeTooLong in es <==> codeLong) && (NameTooLong in es <==> nameLong)
            && InCheckOrder(es) && |es| <= 2
            && (es == [] <==> !codeBlank && !nameBlank && !codeLong && !nameLong)
  {
  }

  /** `Subject.validate_data`: the list of error messages (as their tags), or the
      `AttributeError` raised when the length check calls `strip` on `None`
      (a missing code raises even though its blank message was collected, so
      the messages gathered before the raise are never returned). */
  function ValidateData(s: Subject): (r: Result<seq<SubjectError>>)
    ensures r.Raised? <==> s.code.None? || s.name.None?
    ensures r.Raised? ==> r.error == AttributeError
    ensures r.Ok? ==> (CodeRequired in r.value <==> Strip(s.code.value) == "")
    ensures r.Ok? ==> (NameRequired in r.value <==> Strip(s.name.value) == "")
    ensures r.Ok? ==> (CodeTooLong in r.value <==> |Strip(s.code.value)| > MaxCodeLength)
    ensures r.Ok? ==> (NameTooLong in r.value <==> |Strip(s.name.value)| > MaxNameLength)
    ensures r.Ok? ==> InCheckOrder(r.value) && |r.value| <= 2
    ensures r.Ok? ==> (r.value == [] <==> WellFormed(s))
  {
    if s.code.None? || s.name.None? then Raised(AttributeError)
    else
      var code, name := Strip(s.code.value), Strip(s.name.value);
      var codeBlank, nameBlank := code == "", name == "";
      var codeLong, nameLong := |code| > MaxCodeLength, |name| > MaxNameLength;
      FourChecks(codeBlank, nameBlank, codeLong, nameLong);
      Ok(When(codeBlank, CodeRequired) + When(nameBlank, NameRequired) + When(codeLong, CodeTooLong) + When(nameLong, NameTooLong))
  }
}

=== FILE: pystr.dfy ===
/** The few Python `str` operations the modelled code relies on, with
    Python's semantics: `strip`, `upper`, `split`, `startswith`,
    `replace(old, new, 1)` and `os.path.join` on POSIX paths.
    A Python `str` is a sequence of code points, as a Dafny `string` is. */
module PyStr {
  import opened Base

  /** `str.isspace` for one code point: the characters `str.strip()`
      removes when it is called without an argument. */
  predicate IsSpace(c: char)
  {
    || ('\t' <= c <= '\r')              // tab, line feed, vertical tab, form feed, return
    || ('\U{1C}' <= c <= ' ')           // the four separators and the space
    || c == '\U{85}' || c == '\U{A0}' || c == '\U{1680}'
    || ('\U{2000}' <= c <= '\U{200A}')
    || c == '\U{2028}' || c == '\U{2029}' || c == '\U{202F}'
    || c == '\U{205F}' || c == '\U{3000}'
  }

  /** The number of leading whitespace characters: where `s.lstrip()` starts. */
  function LeadingSpaces(s: string): (n: nat)
    ensures n <= |s|
    ensures forall k :: 0 <= k < n ==> IsSpace(s[k])
    ensures n == |s| || !IsSpace(s[n])
    decreases |s|
  {
    if |s| > 0 && IsSpace(s[0]) then
      var n := 1 + LeadingSpaces(s[1..]);
      assert forall k :: 1 <= k < |s| ==> s[k] == s[1..][k - 1];
      n
    else 0
  }

  /** Where the trailing whitespace begins: where `s.rstrip()` ends. */
  function TrailingStart(s: string): (n: nat)
    ensures n <= |s|
    ensures forall k :: n <= k < |s| ==> IsSpace(s[k])
    ensures n == 0 || !IsSpace(s[n - 1])
    decreases |s|
  {
    if |s| > 0 && IsSpace(s[|s| - 1]) then TrailingStart(s[..|s| - 1]) else |s|
  }

  /** `s.strip()`: the slice of `s` left after removing whitespace from both ends. */
  function Strip(s: string): (r: string)
    ensures |r| <= |s|
    ensures exists i, j :: 0 <= i <= j <= |s| && r == s[i..j]
                           && (forall k :: 0 <= k < i ==> IsSpace(s[k]))
                           && (forall k :: j <= k < |s| ==> IsSpace(s[k]))
    ensures r == [] || (!IsSpace(r[0]) && !IsSpace(r[|r| - 1]))
    ensures r == [] <==> forall k :: 0 <= k < |s| ==> IsSpace(s[k])
  {
    var i := LeadingSpaces(s);
    var j := i + TrailingStart(s[i..]);
    assert forall k :: i <= k < |s| ==> s[k] == s[i..][k - i];
    s[i..j]
  }

  /** Text with no whitespace at either end is its own strip. */
  lemma StripKeepsTrimmed(s: string)
    requires s == [] || (!IsSpace(s[0]) && !IsSpace(s[|s| - 1]))
    ensures Strip(s) == s
  {
  }

  /** Stripping twice is stripping once. */
  lemma StripIdempotent(s: string)
    ensures Strip(Strip(s)) == Strip(s)
  {
    StripKeepsTrimmed(Strip(s));
  }

  /** `c.upper()` for one code point; only the ASCII letters are mapped. */
  function UpperChar(c: char): char
  {
    if 'a' <= c <= 'z' then (c as int - 32) as char else c
  }

  /** `s.upper()`, position by position. */
  function Upper(s: string): (r: string)
    ensures |r| == |s|
    ensures forall k :: 0 <= k < |s| ==> r[k] == UpperChar(s[k])
  {
    seq(|s|, k requires 0 <= k < |s| => UpperChar(s[k]))
  }

  /** Upper-casing never turns whitespace into text or text into whitespace. */
  lemma UpperKeepsSpaces(c: char)
    ensures IsSpace(UpperChar(c)) <==> IsSpace(c)
  {
  }

  /** Upper-casing twice is upper-casing once. */
  lemma UpperIdempotent(s: string)
    ensures Upper(Upper(s)) == Upper(s)
  {
  }

  /** Upper-casing stripped text leaves nothing for `strip` to remove. */
  lemma StripOfUpperStripped(s: string)
    ensures Strip(Upper(Strip(s))) == Upper(Strip(s))
  {
    var t := Strip(s);
    var u := Upper(t);
    if u != [] {
      UpperKeepsSpaces(t[0]);
      UpperKeepsSpaces(t[|t| - 1]);
    }
    StripKeepsTrimmed(u);
  }

  /** `sep.join(parts)`. */
  function Join(parts: seq<string>, sep: char): string
    decreases |parts|
  {
    if |parts| == 0 then ""
    else if |parts| == 1 then parts[0]
    else parts[0] + [sep] + Join(parts[1..], sep)
  }

  /** `s.split(sep)` for a one-character separator: the text between
      consecutive separators, in order, including empty pieces. */
  function Split(s: string, sep: char): (parts: seq<string>)
    ensures |parts| >= 1
    ensures forall k :: 0 <= k < |parts| ==> sep !in parts[k]
    ensures Join(parts, sep) == s
    decreases |s|
  {
    if |s| == 0 then [""]
    else
      var rest := Split(s[1..], sep);
      if s[0] == sep then
        assert ([""] + rest)[1..] == rest;
        [""] + rest
      else
        var parts := [[s[0]] + rest[0]] + rest[1..];
        assert parts[1..] == rest[1..];
        assert s == [s[0]] + s[1..];
        parts
  }

  /** A piece free of the separator followed by the separator is split off
      as the first piece. */
  lemma {:induction false} SplitAfterFirst(a: string, t: string, sep: char)
    requires sep !in a
    ensures Split(a + [sep] + t, sep) == [a] + Split(t, sep)
    decreases |a|
  {
    if |a| == 0 {
      assert a + [sep] + t == [sep] + t;
      assert ([sep] + t)[1..] == t;
    } else {
      var s := a + [sep] + t;
      assert s[1..] == a[1..] + [sep] + t;
      SplitAfterFirst(a[1..], t, sep);
      assert [a[0]] + a[1..] == a;
    }
  }

  /** Text free of the separator, followed by nothing or by another
      separator, is the first piece of the split. */
  lemma {:induction false} SplitFirstPiece(p: string, rest: string, sep: char)
    requires sep !in p
    requires rest == [] || rest[0] == sep
    ensures Split(p + rest, sep)[0] == p
    decreases |p|
  {
    if |p| == 0 {
      assert p + rest == rest;
    } else {
      var s := p + rest;
      assert s[1..] == p[1..] + rest;
      SplitFirstPiece(p[1..], rest, sep);
      assert [p[0]] + p[1..] == p;
    }
  }

  /** `s.startswith(prefix)`. */
  predicate StartsWith(s: string, prefix: string)
  {
    |prefix| <= |s| && s[..|prefix|] == prefix
  }

  /** `pat` occurs in `s` at index `i`. */
  predicate OccursAt(s: string, pat: string, i: nat)
  {
    i + |pat| <= |s| && s[i..i + |pat|] == pat
  }

  /** `s.find(pat, from)`: the first index at or after `from` where `pat` occurs. */
  function FindFrom(s: string, pat: string, from: nat): (r: Option<nat>)
    ensures r.Some? ==> from <= r.value && OccursAt(s, pat, r.value)
    ensures r.Some? ==> forall j :: from <= j < r.value ==> !OccursAt(s, pat, j)
    ensures r.None? ==> forall j :: from <= j ==> !OccursAt(s, pat, j)
    decreases |s| - from
  {
    if from + |pat| > |s| then None
    else if OccursAt(s, pat, from) then Some(from)
    else FindFrom(s, pat, from + 1)
  }

  /** `s.replace(pat, repl, 1)`: the first occurrence of `pat` replaced by `repl`;
      `s` itself when `pat` does not occur. */
  function ReplaceFirst(s: string, pat: string, repl: string): (r: string)
    ensures (forall i: nat :: !OccursAt(s, pat, i)) ==> r == s
    ensures forall i: nat :: OccursAt(s, pat, i) && (forall j: nat :: j < i ==> !OccursAt(s, pat, j)) ==>
              r == s[..i] + repl + s[i + |pat|..]
  {
    match FindFrom(s, pat, 0)
    case None => s
    case Some(i) => s[..i] + repl + s[i + |pat|..]
  }

  /** When `s` starts with `pat`, the first occurrence is the leading one,
      and only it is replaced. */
  lemma ReplaceFirstOfPrefix(s: string, pat: string, repl: string)
    requires StartsWith(s, pat)
    ensures ReplaceFirst(s, pat, repl) == repl + s[|pat|..]
  {
    assert OccursAt(s, pat, 0);
  }

  /** `os.path.join(a, b)` on POSIX: an absolute `b` replaces `a`; otherwise
      a `/` is inserted unless `a` is empty or already ends with one. */
  function PathJoin(a: string, b: string): (r: string)
    ensures StartsWith(b, "/") ==> r == b
    ensures !StartsWith(b, "/") ==> StartsWith(r, a) && |r| >= |a| + |b| && r[|r| - |b|..] == b
    ensures !StartsWith(b, "/") ==> (|r| == |a| + |b| + 1 <==> a != [] && a[|a| - 1] != '/')
    ensures !StartsWith(b, "/") && |r| == |a| + |b| + 1 ==> r[|a|] == '/'
    ensures !StartsWith(b, "/") ==> |r| <= |a| + |b| + 1
  {
    if |b| > 0 && b[0] == '/' then b
    else if a == [] || a[|a| - 1] == '/' then a + b
    else a + "/" + b
  }
}

=== FILE: vision.dfy ===
/** What both face backends share: images as n-dimensional arrays, the
    working-resolution rule `optimize_image_for_recognition` (written out
    identically in both backend files), and the outcome of a database match. */
module Vision {
  import opened Base
  import opened Models

  /** A face encoding: a numeric vector whose length the backend fixes. */
  type Embedding = seq<real>

  /** A numpy array: its shape (`rows, columns, channels...`) and its cells.
      A decoded RGB frame has shape `[height, width, 3]`. */
  datatype NdArray = NdArray(shape: seq<nat>, data: seq<real>)

  /** `np.array(e)` for an encoding: a one-dimensional array. */
  function AsArray(e: Embedding): (a: NdArray)
    ensures |a.shape| == 1
  {
    NdArray([|e|], e)
  }

  /** The resampling of `cv2.resize(image, (width, height))`: the cells of the
      resized image. Its shape is fixed by the model, its cells are not. */
  type Resampler = (NdArray, nat, nat) -> seq<real>

  /** The default `max_width` of `optimize_image_for_recognition`. */
  const MaxWidth: nat := 640

  /** The dimensions after the first two that `cv2.resize` keeps: all of
      them, except that a single trailing channel is dropped (the library
      returns a single-channel image as a two-dimensional array). */
  function KeptChannels(channels: seq<nat>): (kept: seq<nat>)
    ensures channels != [1] ==> kept == channels
    ensures channels == [1] ==> kept == []
  {
    if channels == [1] then [] else channels
  }

  /** `after` is `before` brought down to `maxWidth` columns: the row count is
      scaled by the same factor `maxWidth / width` and rounded down, and the
      channel dimensions are the ones `cv2.resize` keeps. */
  ghost predicate ScaledDown(before: seq<nat>, after: seq<nat>, maxWidth: nat)
    requires |before| >= 2
  {
    && |after| >= 2 && after[2..] == KeptChannels(before[2..])
    && after[1] == maxWidth <= before[1]
    && after[0] <= before[0]
    && after[0] * before[1] <= before[0] * maxWidth < (after[0] + 1) * before[1]
  }

  /** A colour image: rank three with three channels, the only shape dlib's
      face encoder and the mesh backend's face detector accept. */
  predicate ThreeChannel(img: NdArray)
  {
    |img.shape| == 3 && img.shape[2] == 3
  }

  /** `optimize_image_for_recognition(image, max_width)` returns: the array
      has rank two or more, and it is either at most `maxWidth` wide or wide
      enough that `cv2.resize` gets a non-empty target size (the scaled
      height `int(height * scale)` is not zero). */
  predicate Resizable(img: NdArray, maxWidth: nat)
  {
    && |img.shape| >= 2
    && (img.shape[1] <= maxWidth || (maxWidth > 0 && img.shape[1] <= img.shape[0] * maxWidth))
  }

  /** `optimize_image_for_recognition(image, max_width)`. Unpacking
      `height, width = image.shape[:2]` raises on an array of rank below two;
      an image at most `maxWidth` wide is returned as is; a wider one is
      resized to `maxWidth` columns with its height scaled proportionally
      (a single trailing channel does not survive the resize), and
      `cv2.resize` refuses a target size with a zero side. */
  function Optimize(img: NdArray, maxWidth: nat, resample: Resampler): (r: Result<NdArray>)
    ensures r.Ok? <==> Resizable(img, maxWidth)
    ensures |img.shape| < 2 ==> r == Raised(UnpackError)
    ensures |img.shape| >= 2 && r.Raised? ==> r == Raised(CvError)
    ensures r.Ok? && img.shape[1] <= maxWidth ==> r.value == img
    ensures r.Ok? && img.shape[1] > maxWidth ==> ScaledDown(img.shape, r.value.shape, maxWidth)
    ensures r.Ok? ==> |r.value.shape| >= 2
    ensures r.Ok? ==> (ThreeChannel(r.value) <==> ThreeChannel(img))
  {
    if |img.shape| < 2 then Raised(UnpackError)
    else
      var height, width := img.shape[0], img.shape[1];
      if width > maxWidth then
        var newWidth := ScaledFloor(width, maxWidth, width);
        var newHeight := ScaledFloor(height, maxWidth, width);
        assert newWidth == maxWidth;
        if newWidth == 0 || newHeight == 0 then Raised(CvError)
        else Ok(NdArray([newHeight, newWidth] + KeptChannels(img.shape[2..]), resample(img, newWidth, newHeight)))
      else Ok(img)
  }

  /** `int(n * (num / den))` in exact arithmetic: the largest `q` with
      `q * den <= n * num`. */
  function ScaledFloor(n: nat, num: nat, den: nat): (q: nat)
    requires den > 0
    ensures q * den <= n * num < (q + 1) * den
    ensures n == den ==> q == num
    ensures num <= den ==> q <= n
    ensures q == 0 <==> n * num < den
  {
    var q := (n * num) / den;
    ScaledFloorBounds(n, num, den, q);
    q
  }

  /** The quotient pinned down by its bounds: scaling `den` by `num / den`
      gives `num`, and a factor of at most one never scales up. */
  lemma ScaledFloorBounds(n: nat, num: nat, den: nat, q: nat)
    requires den > 0 && q == (n * num) / den
    ensures q * den <= n * num < (q + 1) * den
    ensures n == den ==> q == num
    ensures num <= den ==> q <= n
    ensures q == 0 <==> n * num < den
  {
    QuotientBounds(n * num, den, q);
    if q > 0 {
      MulMono(1, q, den);
    }
    if n == den {
      assert n * num == num * den;
      QuotientOfMultiple(num, den, q);
    }
    if num <= den {
      MulMono(num, den, n);
      assert n * num <= n * den;
      QuotientAtMost(n * num, n, den, q);
    }
  }

  /** Euclidean division: `q * den <= m < (q + 1) * den`. */
  lemma QuotientBounds(m: nat, den: nat, q: nat)
    requires den > 0 && q == m / den
    ensures q * den <= m < (q + 1) * den
  {
    assert m == den * q + m % den;
    assert (q + 1) * den == q * den + den;
  }

  /** A quotient bounded as `q * den <= num * den < (q + 1) * den` is `num`. */
  lemma QuotientOfMultiple(num: nat, den: nat, q: nat)
    requires den > 0
    requires q * den <= num * den < (q + 1) * den
    ensures q == num
  {
    if q > num {
      MulMono(num + 1, q, den);
    }
    if q < num {
      MulMono(q + 1, num, den);
    }
  }

  /** A quotient of at most `n * den` by `den` is at most `n`. */
  lemma QuotientAtMost(m: nat, n: nat, den: nat, q: nat)
    requires den > 0 && q * den <= m <= n * den
    ensures q <= n
  {
    if q > n {
      MulMono(n + 1, q, den);
    }
  }

  lemma MulMono(a: int, b: int, c: nat)
    requires a <= b
    ensures a * c <= b * c
  {
    assert b * c == a * c + (b - a) * c;
  }

  /** The verdict of `find_match_in_db`: the first element of its returned
      pair, with the message of the second element telling the misses apart. */
  datatype MatchOutcome =
    | Recognized(user: UserId)  // "Wajah dikenali..."
    | NoFaceInCamera            // "Tidak ada wajah terdeteksi di kamera."
    | EmptyDatabase             // "Database wajah kosong. Tidak ada referensi untuk perbandingan."
    | NoValidEncoding           // "Tidak ada data encoding valid di database."
    | NotRecognized             // "Wajah tidak dikenali..."
}
